=== FILE: README.md ===
# ARGoS simulation space and tag-equipped entity, modelled in Dafny

This project models the orchestration core of the ARGoS multi-robot
simulator's *space*. The space is the registry that owns the arena's
entities. The model covers:

- how the space builds the arena at start-up: manual entities first, then
  each `distribute` block;
- how a `distribute` block places its entities with pose generators and
  collision retries;
- how an embodied entity's root is handed to the physics engines;
- how one simulation step is ordered;
- reset, teardown and entity lookup;
- the list of controllable entities.

It also models the *tag-equipped entity*. That is a container of tags,
each attached through a fixed offset to an anchor of its parent's body.

The model is imperative where the original is. `SimSpace.Space`,
`Generators.PoseGenerator` and `Tags.TagEquippedEntity` are classes whose
methods update their fields in place. Each method is proved equal to a
pure specification function:

- `Registry.Teardown` for `Destroy`;
- `Distributor.Place` / `Distributor.Distribution` for the placement loop;
- `SimSpace.Arena` for `Init`;
- `Tags.Switched`, `Tags.Updated`, `Tags.Payloads` and the others for the
  tag container.

The properties the original promises are lemmas about those functions.
Oracles stand in for what the original asks of code outside the core:

- **Random draws**: `positionDraw` and `orientationDraw`, indexed by entity
  and trial.
- **Collision answers**: `collides`, indexed the same way.
- **Engine containment**: `contains(engineIndex, position)`.
- **Pattern matching**: `matches(id, pattern)`.
- **Quaternion algebra**: `rotate` and `compose`.

The modules are:

- `Common` (common.dfy): vectors, errors and the trace of observable effects.
- `Registry` (registry.dfy): the entity indices as a value, with add/remove,
  matching, reset events and teardown.
- `Generators` (generators.dfy): the constant, uniform, gaussian and grid
  laws; their validation; the grid arithmetic; the stateful generator class.
- `Dispatcher` (dispatcher.dfy): the physics-engine ownership rule.
- `Distributor` (distributor.dfy): one placement attempt, the retry loop,
  the batch loop and the progressive ids.
- `SimSpace` (space.dfy): the `Space` class.
- `Tags` (tags.dfy): the tag-equipped entity.

The model follows the code except in the three places listed under
Findings. There it models the code as written in one member and the
evidently intended behaviour in another, and the rest of the model uses
the latter. For the positional-only branch of the placement loop, the
intent comes from the source's own comments:

- space.cpp:452 says there is no need to check for collisions;
- space.cpp:467 says the entity can go wherever it was put.

So `Distributor.Place` treats a positional-only entity as done after one
attempt.

## Model

| member | source | states |
|---|---|---|
| Generators.Attribute | src/core/simulator/space/space.cpp:314-316 | a vector attribute is read if present; if absent the result is the error naming that attribute |
| Generators.CreateGenerator | src/core/simulator/space/space.cpp:310-346 | uniform is accepted iff min and max exist and min <= max component-wise, and builds Uniform(min, max); min > max on some axis is the range error carrying both vectors; gaussian needs mean and std_dev and builds Gaussian(mean, std_dev); constant needs values and builds Constant(values); grid needs center, distances and a layout with no zero component and builds Grid(center, layout, distances); a missing layout is the missing-attribute error and a zero component the layout error; any other method name is refused with its name |
| Generators.UniformWithinBounds | src/core/simulator/space/space.cpp:229-243 | with min <= max, every uniform draw lies component-wise within [min, max] |
| Generators.UniformDegenerateAxis | src/core/simulator/space/space.cpp:230-241 | on an axis where max <= min the generator returns max, whatever the draw |
| Generators.UniformReachesEveryValue | src/core/simulator/space/space.cpp:229-243 | every point of [min, max] is produced by some unit draw, so modelling the RNG as a fraction loses no outcome |
| Generators.AxisFractionInverse | src/core/simulator/space/space.cpp:231-232 | per axis, the fraction of a value in [min, max] is in [0, 1] and maps back to that value |
| Generators.UniformAxis | src/core/simulator/space/space.cpp:230-233 | one axis of the uniform law: a point of [min, max] chosen by the draw when max > min, max itself otherwise; `UniformAxisBounds` proves both |
| Generators.UniformValue | src/core/simulator/space/space.cpp:229-243 | the uniform law's output, axis by axis; `UniformWithinBounds`, `UniformDegenerateAxis` and `UniformReachesEveryValue` prove its range |
| Generators.UniformAxisBounds | src/core/simulator/space/space.cpp:230-233 | one axis of a uniform draw stays in [min, max], and equals max when the range is degenerate |
| Generators.IndexOfCellOf | src/core/simulator/space/space.cpp:288-290 | the grid's (k mod nx, (k / nx) mod ny, k / (nx*ny)) decomposition loses no information: recomposing the cell gives back k |
| Generators.Capacity | src/core/simulator/space/space.cpp:287 | the number of cells nx*ny*nz, the capacity the guard intends; `GridCellsBijective` proves it counts the layout's cells |
| Generators.CellOf | src/core/simulator/space/space.cpp:288-290 | the cell (k mod nx, (k / nx) mod ny, k / (nx*ny)) of placement k; `IndexOfCellOf`, `CellOfIndexOf` and `CellWithinLayout` prove it is a bijection onto the layout's cells |
| Generators.IndexOf | src/core/simulator/space/space.cpp:288-290 | the placement index of a cell, the inverse of `CellOf` by the same lemmas |
| Generators.CellOfIndexOf | src/core/simulator/space/space.cpp:288-290 | every cell inside the layout is the cell of its own index |
| Generators.IndexBelowCapacity | src/core/simulator/space/space.cpp:287-290 | the index of a cell inside the layout is below nx*ny*nz |
| Generators.CellWithinLayout | src/core/simulator/space/space.cpp:287-290 | every placement index below nx*ny*nz falls in a cell inside the layout |
| Generators.GridCellsBijective | src/core/simulator/space/space.cpp:287-290 | placement indices below the capacity and cells of the layout correspond one to one |
| Generators.AxisOffsetCentered | src/core/simulator/space/space.cpp:288-290 | each axis offset lies within half the grid's extent around the center and cell i mirrors cell n-1-i |
| Generators.AxisOffsetInjective | src/core/simulator/space/space.cpp:288-290 | with non-zero spacing, distinct cells on one axis have distinct offsets |
| Generators.AxisOffset | src/core/simulator/space/space.cpp:288-290 | the offset (n - 1) * d * 0.5 - i * d along one axis; `AxisOffsetCentered` and `AxisOffsetInjective` prove it is centred and injective |
| Generators.CellPosition | src/core/simulator/space/space.cpp:288-290 | the center plus the three axis offsets of a cell; `GridPositionsDistinct` proves distinct placements get distinct positions when every axis with more than one cell has non-zero spacing |
| Generators.GridPositionsDistinct | src/core/simulator/space/space.cpp:287-291 | with non-zero spacing along every axis that has more than one cell (so a planar grid nx x ny x 1 may have zero z spacing), two distinct placements below the capacity get distinct positions |
| Generators.ConstantIgnoresRetry | src/core/simulator/space/space.cpp:215-217 | the constant law returns its value on first tries and retries alike |
| Generators.NonGridNeverFails | src/core/simulator/space/space.cpp:209-261 | constant, uniform and gaussian laws always yield a value and keep no state |
| Generators.GridStepping | src/core/simulator/space/space.cpp:282-298 | a retry fails with the current placement count; otherwise the grid yields the next cell and counts it while below the capacity, and fails with exhaustion after |
| Generators.Calls | src/core/simulator/space/space.cpp:282-298 | the results of m successive first-try calls; `GridCallsFrom` and `GridExhaustive` prove what a grid returns |
| Generators.GridCallsFrom | src/core/simulator/space/space.cpp:282-298 | m first-try calls from count p yield the cells p, p+1, ... and exhaustion once the capacity is reached |
| Generators.GridExhaustive | src/core/simulator/space/space.cpp:282-298 | from a fresh grid, the first nx*ny*nz calls visit every cell in index order and the next one fails |
| Generators.CapacityAsWritten | src/core/simulator/space/space.cpp:287 | the product layout[0] * layout[1] * layout[2] as the source computes it, modulo 2^32; `CapacityWrapsAsWritten` exhibits the wrap |
| Generators.CapacityWrapsAsWritten | src/core/simulator/space/space.cpp:287 | the 32-bit product of a valid 65536 x 65536 x 1 layout is 0, so the guard refuses a placement the layout has room for |
| Generators.Generate | src/core/simulator/space/space.cpp:209-298 | one call of a generator on its law, retry flag and draw; it is specified through its lemmas: `ConstantIgnoresRetry`, `NonGridNeverFails` (non-grid laws never fail and keep no state) and `GridStepping`/`GridExhaustive` (the grid's counter, its retry refusal and its exhaustion) |
| Generators.PoseGenerator.constructor | src/core/simulator/space/space.cpp:266-274 | a new generator has its law and has placed nothing |
| Generators.PoseGenerator.Call | src/core/simulator/space/space.cpp:209-298 | one call returns exactly what `Generate` specifies and advances the grid counter as it does |
| Registry.RemoveLastCount | src/core/simulator/space/space.cpp:85 | removing an entity takes out exactly one occurrence when present (same multiset minus one) and changes nothing when absent |
| Registry.RemoveLast | src/core/simulator/space/space.cpp:85 | the registry's removal of an entity from one index: its last occurrence goes; `RemoveLastCount` and `RemoveLastAfterAppend` prove it |
| Registry.RemoveLastAfterAppend | src/core/simulator/space/space.cpp:474-480 | removing the element just appended gives back the list |
| Registry.AddEntity | src/core/simulator/space/space.cpp:54 | registering an entity as a value: appended to the flat and root indices, its type recorded, an Added event traced; `AddThenRemove` and `PlaceRegistry` use it |
| Registry.RemoveEntity | src/core/simulator/space/space.cpp:85 | unregistering an entity from the flat and root indices, keeping the types, with a Removed event; `AddThenRemove` and `TeardownRemovesRootsBackwards` prove its effect |
| Registry.Bounce | src/core/simulator/space/space.cpp:474-480 | what adding a colliding candidate and removing it leaves; `AddThenRemove` proves it equals the add followed by the remove |
| Registry.AddThenRemove | src/core/simulator/space/space.cpp:474-480 | registering a colliding candidate and removing it again restores both entity indices; only the type index and the trace remember it |
| Registry.Matching | src/core/simulator/space/space.cpp:92-100 | the entities of a list whose id matches the pattern, in list order; `MatchingCounts` and `MatchingEverything` prove what it keeps |
| Registry.MatchingCounts | src/core/simulator/space/space.cpp:92-100 | each entity whose id matches the pattern is returned as many times as it is registered, every other one never |
| Registry.MatchingEverything | src/core/simulator/space/space.cpp:92-100 | a pattern matching every id returns the entity list unchanged, in order |
| Registry.RemoveFirstAt | src/core/simulator/space/space.cpp:148-155 | removing a controllable entity cuts the list exactly at its first occurrence, or leaves it whole when absent |
| Registry.RemoveFirstCount | src/core/simulator/space/space.cpp:148-155 | exactly one occurrence goes when present (multiset minus one), nothing when absent |
| Registry.RemoveFirst | src/core/simulator/space/space.cpp:148-155 | the list with the first occurrence of an entity erased; `RemoveFirstAt` and `RemoveFirstCount` prove it |
| Registry.ResetEvents | src/core/simulator/space/space.cpp:74-76 | one reset per entity, in list order |
| Registry.RemovedBackwards | src/core/simulator/space/space.cpp:84-86 | the k-th removal is of the k-th root counted from the end |
| Registry.Teardown | src/core/simulator/space/space.cpp:82-87 | removing the last root until none is left; `TeardownRemovesRootsBackwards` proves what it leaves |
| Registry.TeardownRemovesRootsBackwards | src/core/simulator/space/space.cpp:82-87 | teardown leaves no root, keeps the type index and removes the roots from the last to the first; when the flat index holds exactly the roots, it ends empty too |
| Dispatcher.RootOf | src/core/simulator/space/space.cpp:161-165 | the root has no parent, and is reached by following parent links from the entity |
| Dispatcher.Housing | src/core/simulator/space/space.cpp:169-174 | the candidate list holds engine indices only |
| Dispatcher.HousingExact | src/core/simulator/space/space.cpp:169-174 | an engine is a candidate iff it contains the position; candidates are listed once each, in engine order |
| Dispatcher.HousingEmpty | src/core/simulator/space/space.cpp:176-178 | there is no candidate iff no engine contains the position |
| Dispatcher.HousingShared | src/core/simulator/space/space.cpp:186-198 | there are two or more candidates iff two distinct engines contain the position |
| Dispatcher.HousingTwo | src/core/simulator/space/space.cpp:186-198 | two distinct engines containing the position make at least two candidates |
| Dispatcher.HousingSingle | src/core/simulator/space/space.cpp:186-189 | a single candidate is the only engine containing the position |
| Dispatcher.Dispatch | src/core/simulator/space/space.cpp:176-198 | the ownership rule on the candidate engines; `DispatchOwnership` and `MovableSingleOwner` prove what it decides in terms of which engines contain the position |
| Dispatcher.DispatchOwnership | src/core/simulator/space/space.cpp:160-199 | no housing iff no engine contains the position; a movable entity is refused iff two engines contain it, and otherwise goes to the one engine that does; a static entity goes to exactly the engines that contain it |
| Dispatcher.MovableSingleOwner | src/core/simulator/space/space.cpp:185-189 | a movable entity that is assigned is assigned to one engine |
| Distributor.DecimalShape | src/core/simulator/space/space.cpp:426 | the decimal rendering of n is non-empty, one digit iff n < 10, ends with n's last digit and starts with the rendering of n / 10 |
| Distributor.DecimalInjective | src/core/simulator/space/space.cpp:426 | distinct numbers render to distinct decimal strings |
| Distributor.Decimal | src/core/simulator/space/space.cpp:426 | `ToString` of a natural number; `DecimalShape` and `DecimalInjective` prove its digits and injectivity |
| Distributor.IdFor | src/core/simulator/space/space.cpp:426 | the id of entity i: the base id followed by the decimal i + base_num; `IdsDistinct` and `PlacedRecsDistinct` prove ids are unique in a batch |
| Distributor.IdsDistinct | src/core/simulator/space/space.cpp:422-426 | two entities of one batch never get the same identifier |
| Distributor.Classify | src/core/simulator/space/space.cpp:351-386 | an entity is embodied if it is embodied itself or a composable with a "body" component, else positional if it is positional itself or has a "position" component, else neither; the part found is the entity before its component |
| Distributor.EmbodiedPart | src/core/simulator/space/space.cpp:351-366 | the entity itself if embodied, else its body component if it is composable and has one; `Classify`'s contract states what it decides |
| Distributor.PositionalPart | src/core/simulator/space/space.cpp:371-386 | the entity itself if positional, else its position component if it is composable and has one; `Classify`'s contract states what it decides |
| Distributor.Attempt | src/core/simulator/space/space.cpp:433-497 | one turn of the placement do-while; `AttemptEffects`, `AttemptPoses` and `UnfailingAttempt` prove its effects |
| Distributor.AttemptEffects | src/core/simulator/space/space.cpp:433-497 | one attempt never reports exhaustion; it collides iff the entity is embodied, both generators produced a pose and the engine reports a collision; a settled attempt registers the entity once; otherwise the indices are as before; the trace only grows |
| Distributor.AttemptPoses | src/core/simulator/space/space.cpp:444-446 | an attempt writes at most one pose, carrying the current retry flag, and a collided attempt always wrote one |
| Distributor.AttemptUniformPoseWithinBounds | src/core/simulator/space/space.cpp:444 | with a uniform position law whose min <= max and a draw in the unit cube, the position an attempt writes lies in [min, max] |
| Distributor.PlacedRecsDistinct | src/core/simulator/space/space.cpp:422-426 | the first n entities of a batch get ids base + (k + base_num), in order and pairwise distinct |
| Distributor.PlacedRecs | src/core/simulator/space/space.cpp:422-426 | the records of the first n entities of a batch, in order; `PlacedRecsDistinct` and `RunRegistry` prove what they are |
| Distributor.Place | src/core/simulator/space/space.cpp:429-498 | the placement loop of one entity from a given trial; `PlaceBounded`, `PlaceRegistry`, `PlaceAlwaysColliding`, `PlaceCollidesThenSettles`, `PositionalNeedsNoCollisionCheck`, `NeitherIsNotPlaceable`, `GridCollisionIsFatal` and `PlaceRetryFlags` prove how it ends |
| Distributor.Settle | src/core/simulator/space/space.cpp:476-498 | the loop condition after one attempt: a collision is retried while trials remain, and every other result ends the loop; proved with `Place` by the same lemmas |
| Distributor.PlaceBounded | src/core/simulator/space/space.cpp:429-498 | the placement of one entity stops within max_trials retries; running out of trials happens only after exactly max_trials retries and reports the type, base id and the number placed so far |
| Distributor.PlaceRegistry | src/core/simulator/space/space.cpp:459-496 | a placed entity is registered exactly once; a failed placement leaves the indices as they were; the trace only grows |
| Distributor.UnfailingAttempt | src/core/simulator/space/space.cpp:459-496 | with generators that cannot fail, an embodied entity collides exactly when the engine says so, a positional one always settles, and any other is refused |
| Distributor.PlaceAlwaysColliding | src/core/simulator/space/space.cpp:476-490 | with non-grid generators, an embodied entity that always collides fails with the exhaustion error after exactly max_trials retries (with a grid position law it fails at the second attempt instead, see `GridCollisionIsFatal`) |
| Distributor.PlaceCollidesThenSettles | src/core/simulator/space/space.cpp:476-496 | with non-grid generators, an embodied entity that collides on trials trials..n-1 and not on n, with n <= max_trials, is placed at trial n |
| Distributor.PositionalNeedsNoCollisionCheck | src/core/simulator/space/space.cpp:459-469 | for any laws, a positional-only entity gets exactly one attempt and the collision oracle has no influence on the result; it is placed iff both generators produced a pose, which non-grid generators always do |
| Distributor.NeitherIsNotPlaceable | src/core/simulator/space/space.cpp:459-465 | for any laws, an entity that is neither embodied nor positional fails at the first attempt; with non-grid generators the failure is the not-placeable error |
| Distributor.GridCollisionIsFatal | src/core/simulator/space/space.cpp:282-285 | with a grid position law, a collision makes the retry fail at once with the grid's retry error |
| Distributor.PlaceRetryFlags | src/core/simulator/space/space.cpp:431-482 | the poses written while placing one entity carry retry = false first and retry = true on every later attempt, at most one per trial |
| Distributor.Run | src/core/simulator/space/space.cpp:422-498 | the batch loop: entity i + 1 is placed only after entity i; `RunCounts` and `RunRegistry` prove its count and its effect on the indices |
| Distributor.RunCounts | src/core/simulator/space/space.cpp:422-498 | a batch places between 0 and quantity entities, all of them when it succeeds, and an exhaustion error reports exactly how many were placed |
| Distributor.RunRegistry | src/core/simulator/space/space.cpp:422-498 | after a batch the indices are the previous ones followed by the placed entities' records in order; the trace only grows |
| Distributor.Distribution | src/core/simulator/space/space.cpp:391-507 | a whole distribute block: both generators, the template check, then the batch; `DistributionPlacesInOrder` proves its outcome and effect |
| Distributor.DistributionPlacesInOrder | src/core/simulator/space/space.cpp:391-507 | a distribute block succeeds only with an entity template and after placing quantity entities; it appends exactly the placed entities, in order; without a template it changes nothing |
| Distributor.PlaceAsWritten | src/core/simulator/space/space.cpp:462-469 | the placement loop with the positional-only branch as written, which registers the entity without setting the done flag, run for a bounded number of turns; `PositionalLoopsForeverAsWritten` proves what it does |
| Distributor.PositionalLoopsForeverAsWritten | src/core/simulator/space/space.cpp:462-469 | as written, the done flag is never set on the positional-only branch (it is set only at line 494), so each turn registers the same id again. Under the append-only registry modelled here, no number of turns ends the loop |
| Distributor.TrialsAfterCollisionAsWritten | src/core/simulator/space/space.cpp:482 | `++unTrials` on a UInt32: the next count modulo 2^32 |
| Distributor.PlaceWrappingAsWritten | src/core/simulator/space/space.cpp:476-490 | the placement loop with the trial counter as written (UInt32 increment, then the test against max_trials), run for a bounded number of turns; `TrialCheckNeverFiresAsWritten` proves what it does |
| Distributor.TrialCheckNeverFiresAsWritten | src/core/simulator/space/space.cpp:476-490 | with max_trials = 4294967295 and non-grid generators, the as-written loop never ends for an embodied entity that always collides, for any number of turns: the 32-bit counter wraps to 0 instead of exceeding max_trials |
| SimSpace.OfTypeExact | src/core/simulator/space/space.cpp:105-113 | the per-type view holds exactly the registered entities of that type |
| SimSpace.OfType | src/core/simulator/space/space.cpp:105-113 | the registered entities of one type, in list order; `OfTypeExact` proves it holds exactly those |
| SimSpace.EngineNames | src/core/simulator/space/space.cpp:192-196 | the error lists the candidate engines' ids, one per candidate, in order |
| SimSpace.Assigned | src/core/simulator/space/space.cpp:180-189 | the root is appended to exactly the chosen engines; every other engine is unchanged |
| SimSpace.Arena | src/core/simulator/space/space.cpp:36-65 | arena set-up: every manual entity, then each distribute block until one fails; `ManualEntitiesComeFirst` and `DistributeFromExtends` prove its order |
| SimSpace.ManualRecs | src/core/simulator/space/space.cpp:46-56 | the records of the hand-placed entities, in document order |
| SimSpace.AddAll | src/core/simulator/space/space.cpp:46-56 | registering records one after another; `AddAllAppends` proves its effect |
| SimSpace.AddAllAppends | src/core/simulator/space/space.cpp:46-56 | registering records in turn appends exactly them, in order, to the flat and root indices; the trace only grows |
| SimSpace.DistributeFrom | src/core/simulator/space/space.cpp:57-64 | running the distribute blocks from child k on, in order, until one fails; `DistributeFromExtends` proves its effect |
| SimSpace.DistributeFromExtends | src/core/simulator/space/space.cpp:57-64 | running the remaining blocks only extends the flat index and the trace |
| SimSpace.ManualEntitiesComeFirst | src/core/simulator/space/space.cpp:46-64 | the manually placed entities are registered, in document order, before any distributed one; the trace only grows |
| SimSpace.FindRoot | src/core/simulator/space/space.cpp:161-165 | the walk up the parent links ends at the root |
| SimSpace.FindHousing | src/core/simulator/space/space.cpp:168-174 | the loop over the engines collects exactly the candidate list |
| SimSpace.Space.constructor | src/core/simulator/space/space.cpp:25-30 | a new space has clock 0, no entity, no type and no controllable entity, and satisfies the invariant (flat index equal to root index) |
| SimSpace.Space.AddEntity | src/core/simulator/space/space.cpp:54 | adding an entity appends it to the flat and root indices and records its type, keeping the flat index equal to the root index; the clock and controllables are untouched |
| SimSpace.Space.RemoveEntity | src/core/simulator/space/space.cpp:85 | removing an entity takes its last occurrence out of both indices, keeping them equal; the clock and controllables are untouched |
| SimSpace.Space.Update | src/core/simulator/space/space.cpp:118-136 | one step increments the clock and runs act, physics, media, pre-step, sense+step, post-step and the two log flushes in that order, touching no index |
| SimSpace.Space.Reset | src/core/simulator/space/space.cpp:70-77 | the clock returns to 0 and every registered entity is reset once, in list order |
| SimSpace.Space.Destroy | src/core/simulator/space/space.cpp:82-87 | the state afterwards is `Teardown` of the state before: every root removed, last first, and both the flat and the root index are empty |
| SimSpace.Space.AddManualEntities | src/core/simulator/space/space.cpp:46-56 | the first pass over the arena's children registers exactly the hand-placed entities, in document order, keeping the invariant |
| SimSpace.Space.DistributeBlocks | src/core/simulator/space/space.cpp:57-64 | the second pass runs the distribute blocks in document order and stops at the first that fails, ending where `DistributeFrom` specifies |
| SimSpace.Space.GetEntitiesMatching | src/core/simulator/space/space.cpp:92-100 | the buffer is extended with the matching entities in list order |
| SimSpace.Space.GetEntitiesByType | src/core/simulator/space/space.cpp:105-113 | an unknown type is an error naming it; a known type yields exactly the entities of that type |
| SimSpace.Space.AddControllableEntity | src/core/simulator/space/space.cpp:141-143 | the entity is appended to the controllable list |
| SimSpace.Space.RemoveControllableEntity | src/core/simulator/space/space.cpp:148-155 | the first occurrence of the entity is erased, if any |
| SimSpace.Space.AddToEngines | src/core/simulator/space/space.cpp:180-189 | the root is appended to exactly the chosen engines |
| SimSpace.Space.AddEntityToPhysicsEngine | src/core/simulator/space/space.cpp:160-199 | fails with the root's id when no engine houses the entity and with the candidate engines' ids when a movable entity has several; otherwise adds the root to every candidate (static) or to the single one (movable); a failure changes nothing |
| SimSpace.Space.TryPlace | src/core/simulator/space/space.cpp:433-497 | one turn of the placement loop does exactly what `Attempt` specifies |
| SimSpace.Space.PlaceEntity | src/core/simulator/space/space.cpp:429-498 | the placement loop of one entity ends in exactly the state and outcome `Place` specifies |
| SimSpace.Space.Distribute | src/core/simulator/space/space.cpp:391-507 | a distribute block ends in exactly the state, outcome and count `Distribution` specifies |
| SimSpace.Space.Init | src/core/simulator/space/space.cpp:36-65 | arena set-up ends in exactly the state and outcome `Arena` specifies: manual entities first, then each distribute block |
| Tags.Switched | src/plugins/simulator/entities/tag_equipped_entity.cpp:101-116 | switching anchors keeps the body's set of anchors |
| Tags.SwitchedExact | src/plugins/simulator/entities/tag_equipped_entity.cpp:101-116 | exactly the anchors some instance uses get the new flag; their poses and all other anchors are unchanged |
| Tags.LastSwitchWins | src/plugins/simulator/entities/tag_equipped_entity.cpp:101-116 | after Enable then Disable, or the reverse, the anchors are as if only the last call had happened; this holds because an anchor's Enable/Disable is read here as setting its flag (see Left out) |
| Tags.WithPayload | src/plugins/simulator/entities/tag_equipped_entity.cpp:135-145 | tag i gets the new payload; nothing else about it and no other instance changes |
| Tags.PayloadAll | src/plugins/simulator/entities/tag_equipped_entity.cpp:150-154 | every tag with the one payload; `PayloadsOfOneString` relates it to the vector form |
| Tags.Payloads | src/plugins/simulator/entities/tag_equipped_entity.cpp:159-164 | tag k with payload k; `PayloadsChecked` and `PayloadsAsIndexed` prove it |
| Tags.PayloadsResult | src/plugins/simulator/entities/tag_equipped_entity.cpp:159-175 | the vector form's outcome and instances: the size check, then one payload per tag; `PayloadsChecked` proves both branches |
| Tags.SetEach | src/plugins/simulator/entities/tag_equipped_entity.cpp:161-163 | the first n payloads set one index at a time; `SetEachPrefix` and `PayloadsAsIndexed` relate it to `Payloads` |
| Tags.SetEachPrefix | src/plugins/simulator/entities/tag_equipped_entity.cpp:161-163 | after n steps of the indexed loop, the first n tags carry the vector form's payloads |
| Tags.PayloadsChecked | src/plugins/simulator/entities/tag_equipped_entity.cpp:159-175 | the vector form fails iff the sizes differ, reports both sizes and changes nothing; otherwise tag k carries payload k and nothing else changes |
| Tags.PayloadsAsIndexed | src/plugins/simulator/entities/tag_equipped_entity.cpp:159-164 | the vector form equals setting the payloads one index at a time, in order |
| Tags.PayloadsOfOneString | src/plugins/simulator/entities/tag_equipped_entity.cpp:150-175 | the single-string form equals the vector form with that string repeated |
| Tags.ResetReachesEveryTag | src/plugins/simulator/entities/tag_equipped_entity.cpp:92-96 | every tag is reset exactly once and nothing else changes |
| Tags.ResetAll | src/plugins/simulator/entities/tag_equipped_entity.cpp:92-96 | every tag with its reset count raised by one; `ResetReachesEveryTag` proves it |
| Tags.Updated | src/plugins/simulator/entities/tag_equipped_entity.cpp:180-194 | the new instance list after a pose update; `UpdateMovesOnlyEnabledTags` and `UpdateIdempotent` prove which tags move and where |
| Tags.Moved | src/plugins/simulator/entities/tag_equipped_entity.cpp:186-191 | one tag moved to the anchor position plus the rotated offset, facing the composed orientation; `UpdateMovesOnlyEnabledTags` proves what changes |
| Tags.UpdateMovesOnlyEnabledTags | src/plugins/simulator/entities/tag_equipped_entity.cpp:180-194 | disabled tags keep their pose; an enabled tag is placed at anchor position + offset rotated by the anchor orientation, facing anchor orientation * orientation offset; nothing but poses changes |
| Tags.UpdateIdempotent | src/plugins/simulator/entities/tag_equipped_entity.cpp:180-194 | updating twice with the same anchors is the same as updating once |
| Tags.MediumRoundTrip | src/plugins/simulator/entities/tag_equipped_entity.cpp:199-214 | adding to a medium puts every tag in it and changes nothing else; removing afterwards leaves no tag in any medium |
| Tags.Joined | src/plugins/simulator/entities/tag_equipped_entity.cpp:199-214 | every tag linked to the given medium, or to none; `MediumRoundTrip` proves it |
| Tags.Instantiate | src/plugins/simulator/entities/tag_equipped_entity.cpp:51-80 | the instances created from the tag children, with the outcome; `InstantiateInOrder` and `InstantiateSplit` prove what it creates |
| Tags.InstanceOf | src/plugins/simulator/entities/tag_equipped_entity.cpp:75-78 | the instance a tag child creates: its tag, anchor name and both offsets |
| Tags.Created | src/plugins/simulator/entities/tag_equipped_entity.cpp:51-80 | the instances a run of tag children creates, one per child in order; `InstantiateInOrder` and `InstantiateSplit` use it |
| Tags.TagIds | src/plugins/simulator/entities/tag_equipped_entity.cpp:79 | the ids of the tags added as components, one per instance in order |
| Tags.InstantiateInOrder | src/plugins/simulator/entities/tag_equipped_entity.cpp:51-80 | Init succeeds iff every tag child names a known anchor, then creates one instance per child in document order; otherwise it stops at the first unknown anchor, naming it, having created the instances before it |
| Tags.InstantiateSplit | src/plugins/simulator/entities/tag_equipped_entity.cpp:51-80 | past a prefix of children with known anchors, the created instances are those of the prefix followed by the rest's |
| Tags.TagEquippedEntity.constructor | src/plugins/simulator/entities/tag_equipped_entity.cpp:29-32 | a new entity is disabled and has no instance |
| Tags.TagEquippedEntity.WithId | src/plugins/simulator/entities/tag_equipped_entity.cpp:37-41 | a new entity with an id is disabled and has no instance |
| Tags.TagEquippedEntity.Init | src/plugins/simulator/entities/tag_equipped_entity.cpp:46-87 | appends the instances `Instantiate` specifies and their tags as components; on success moves the enabled tags to their anchors |
| Tags.TagEquippedEntity.CreateInstances | src/plugins/simulator/entities/tag_equipped_entity.cpp:51-80 | the loop over the tag children appends exactly the instances `Instantiate` specifies |
| Tags.TagEquippedEntity.Reset | src/plugins/simulator/entities/tag_equipped_entity.cpp:92-96 | every tag is reset once |
| Tags.TagEquippedEntity.SwitchAnchors | src/plugins/simulator/entities/tag_equipped_entity.cpp:101-116 | sets the entity's flag and the flag of every instance's anchor to the same value |
| Tags.TagEquippedEntity.Enable | src/plugins/simulator/entities/tag_equipped_entity.cpp:101-106 | the entity and every instance's anchor become enabled |
| Tags.TagEquippedEntity.Disable | src/plugins/simulator/entities/tag_equipped_entity.cpp:111-116 | the entity and every instance's anchor become disabled |
| Tags.TagEquippedEntity.SetTagPayload | src/plugins/simulator/entities/tag_equipped_entity.cpp:121-145 | requires the index in range; tag i (as GetTag reads it) carries the payload and every other tag is unchanged |
| Tags.TagEquippedEntity.GetTag | src/plugins/simulator/entities/tag_equipped_entity.cpp:121-130 | the tag of instance i, under the index bound the assertion checks |
| Tags.TagEquippedEntity.SetAllTagPayloads | src/plugins/simulator/entities/tag_equipped_entity.cpp:150-154 | every tag carries the same payload |
| Tags.TagEquippedEntity.SetTagPayloads | src/plugins/simulator/entities/tag_equipped_entity.cpp:159-175 | outcome and instances are those of `PayloadsResult`: the size check, then one payload per tag |
| Tags.TagEquippedEntity.UpdateComponents | src/plugins/simulator/entities/tag_equipped_entity.cpp:180-194 | the instances become `Updated` of the old ones: only enabled tags move |
| Tags.TagEquippedEntity.AddToMedium | src/plugins/simulator/entities/tag_equipped_entity.cpp:199-204 | every tag joins the medium, then the entity and its anchors are enabled |
| Tags.TagEquippedEntity.RemoveFromMedium | src/plugins/simulator/entities/tag_equipped_entity.cpp:209-214 | every tag leaves its medium, then the entity and its anchors are disabled |
| Tags.TagEquippedEntity.Rejoin | src/plugins/simulator/entities/tag_equipped_entity.cpp:200-202 | every tag's medium is set to the given one and nothing else changes |

## Left out

- Configuration parsing (`GetNode`, `GetNodeAttribute`, `ParseValues`, tree copying, `SetNodeAttribute`): its results are inputs. `GenConfig` holds a parsed generator node, `Batch` a parsed `distribute` block, `TagNode` a parsed tag child. Parse errors other than a missing vector or layout attribute of a generator are not modelled. This includes a missing `quantity`, `max_trials` or entity `id`, and a malformed layout string. The generator's `method` attribute (space.cpp:312) is always present in `GenConfig`, so its absence is not modelled either.
- The arena's `center` and `size` attributes read by `CSpace::Init` are not modelled.
- Entity creation through `CFactory` and each entity's own `Init`, `Reset` and `Destroy`: an entity is a record (id, type) plus its shape (embodied, positional, composable, component names). A reset is recorded as an event.
- `CSpaceOperationAddEntity` / `CSpaceOperationRemoveEntity` and the registry's own add/remove (space.h is not part of this model): adding appends to the flat and root indices and records the type; removing takes out the most recent occurrence. Duplicate-id checks there, if any, are not modelled.
- SimSpace.Space.Valid: the components of a composable entity are never registered, so the flat index always equals the root index. In the original the flat index also holds components, and `Reset` (space.cpp:74-76) and `GetEntitiesMatching` (space.cpp:94-99) walk them too; here both see only roots.
- Distributor.IdFor: base_num is a UInt64 in the original (space.cpp:410), so `i + base_num` (space.cpp:426) wraps modulo 2^64. The model adds unbounded naturals, so ids differ from the original's when base_num is within `quantity` of 2^64. `IdsDistinct` is unaffected for batches below 2^64 entities.
- SimSpace.Space.AddEntity / SimSpace.Space.RemoveEntity / Distributor.Attempt: the dispatch to the physics engines when an embodied candidate is added (space.cpp:473-474) and the release from them when it is removed again (space.cpp:480) are not modelled. Dispatch is modelled on its own, in `Dispatcher` and `SimSpace.Space.AddEntityToPhysicsEngine`. As a result, `Init` and `Distribute` never fail with the no-housing or ambiguous-engine errors. The engine lists change only through `AddEntityToPhysicsEngine`, and nothing removes an entity from them: a root that `Destroy` or a collision removes stays in any engine list it was put in.
- The random number generator: each draw is an oracle value indexed by entity and trial. A uniform draw is the fraction of the way from min to max on each axis. A gaussian draw is the sampled vector itself, so nothing about its distribution is modelled.
- Collision detection, engine containment and `MatchPattern` are oracles.
- Physics engines, media, controllers and loop functions are represented only by the order of the phases `Update` runs. Their effects are not modelled.
- Floating point: vectors and quaternions are `real`. Rounding in the grid offsets and the uniform draw is not modelled.
- SimSpace.Space.Update: the simulation clock is an unbounded `nat`. Its 32-bit wrap-around (in space.h, not part of this model) is not modelled.
- Exceptions are modelled as `Fail`/`Err` results carrying the error. The nested exception wrappers and the message texts are not modelled.
- Memory management: deleting the generators, and leaking a candidate entity or a tag whose initialisation failed, are not modelled.
- Generators.PoseGenerator: the C++ class hierarchy (constant, uniform, gaussian, grid generators behind one virtual call) is one class over a `Law` value.
- Tags.TagEquippedEntity: the tags are kept by value in the instance list. `GetTag` returns a copy, so changes a caller makes through the returned reference are not modelled.
- Tags.TagEquippedEntity: the tag entity's own `Reset`, `SetPayload`, `MoveTo`, `AddToMedium` and `RemoveFromMedium` are modelled only by their visible effect on the tag (a reset count, the payload, the pose, the medium link). The tag medium's own index is not part of this model.
- Tags.TagEquippedEntity: the anchors' `Enable`/`Disable` (in the embodied entity, not part of this model) are taken to set the anchor's enabled flag. Any propagation of the enabled flag to the composable's components is not modelled.
- Tags.TagEquippedEntity.Init: the parent composable's own `Init` and a missing "body" component are not modelled. The body is given to the constructor.
- Tags.TagEquippedEntity.SetTagPayloads: the 32-bit loop index assumes fewer than 2^32 tags.
- Tags.TagEquippedEntity.GetTag is an accessor with only a precondition (index in range). Its contract is used by `SetTagPayload`.
- Dispatcher.RootOf: termination of the walk up the parent links relies on a rank that grows from parent to child, a ghost stand-in for the finite, acyclic entity tree.

## Findings

| source | as written | input that shows it | evidently intended | confidence | as-written member | corrected member |
|---|---|---|---|---|---|---|
| src/core/simulator/space/space.cpp:287 | the grid's capacity `layout[0] * layout[1] * layout[2]` is computed in 32-bit unsigned arithmetic and wraps | layout 65536,65536,1: the product wraps to 0, so the very first placement is refused as "more entities than allowed" | capacity is the true product nx*ny*nz, and the first nx*ny*nz first-try calls visit every cell | not executed | Generators.CapacityWrapsAsWritten | Generators.GridExhaustive |
| src/core/simulator/space/space.cpp:482-484 | `++unTrials` on a UInt32 followed by `unTrials > unMaxTrials` | max_trials = 4294967295 and an entity that always collides: the counter wraps to 0 and the test never fires, so the loop never ends | the placement gives up after max_trials retries | not executed | Distributor.TrialCheckNeverFiresAsWritten | Distributor.PlaceAlwaysColliding |
| src/core/simulator/space/space.cpp:462-469 | the positional-only branch registers the entity but never sets `bDone`, which is set only at line 494 | any entity that is positional but not embodied, with a constant or uniform generator: the do-while goes round again and registers the same id again. Under the append-only registry modelled here it never ends. The registry's real behaviour on a repeated id is not part of this model, so whether the original fails on the second turn or loops is left open | a positional-only entity is done once registered, with no collision check | not executed | Distributor.PositionalLoopsForeverAsWritten | Distributor.PositionalNeedsNoCollisionCheck |

=== FILE: common.dfy ===
/** Values shared by the space, the pose generators and the distributor. */
module Common {

  /** A 3D vector (CVector3); floating point is modelled by `real`. */
  datatype Vec3 = Vec3(x: real, y: real, z: real)

  /** Component-wise `<=` between two vectors, the order the uniform generator checks. */
  predicate LessEq(a: Vec3, b: Vec3) {
    a.x <= b.x && a.y <= b.y && a.z <= b.z
  }

  function Plus(a: Vec3, b: Vec3): Vec3 {
    Vec3(a.x + b.x, a.y + b.y, a.z + b.z)
  }

  datatype Option<T> = None | Some(value: T)

  /** Identifiers of entities and the type tag they are registered under. */
  type EntityId = string

  datatype EntityRec = EntityRec(id: EntityId, typ: string)

  /** The error conditions the core raises (all are exceptions in the original). */
  datatype Error =
    | MissingAttribute(name: string)
    | InvalidRange(min: Vec3, max: Vec3)
    | InvalidLayout
    | UnknownMethod(name: string)
    | GridRetryUnsupported(placed: nat)
    | GridExhausted
    | NoEntityToDistribute
    | NotPlaceable(typ: string)
    | PlacementExhausted(typ: string, baseId: string, placed: nat)
    | NoHousingEngine(root: EntityId)
    | AmbiguousEngine(entity: EntityId, engines: seq<string>)
    | UnknownType(typ: string)
    | UnknownAnchor(anchor: string)
    | PayloadCountMismatch(tags: nat, payloads: nat)

  datatype Result<T> = Ok(value: T) | Err(error: Error)

  datatype Outcome = Pass | Fail(error: Error)

  /** The phases of one simulation step, in the order the scheduler runs them. */
  datatype Phase = Act | Physics | Media | PreStep | SenseStep | PostStep | FlushLog | FlushLogErr

  /**
   * Observable side effects, recorded in order:
   * the pose written into a candidate's body node, registry additions and
   * removals, per-entity resets and the step phases.
   */
  datatype Event =
    | Posed(id: EntityId, retry: bool, position: Vec3, orientation: Vec3)
    | Added(rec: EntityRec)
    | Removed(rec: EntityRec)
    | ResetEntity(entity: EntityId)
    | Ran(phase: Phase)
}

=== FILE: dispatcher.dfy ===
/**
 * The ownership rule by which the space hands an embodied entity to the
 * physics engines: the entity's root ancestor goes to every engine whose
 * region contains the entity's position if the entity is static, and to the
 * single such engine if it is movable. The containment test of an engine is
 * an oracle `contains(engineIndex, position)`.
 */
module Dispatcher {
  import opened Common

  /**
   * The parent links of the entity tree, with a rank that strictly grows from
   * parent to child, so that walking up always ends.
   */
  ghost predicate Ranked(parent: map<EntityId, EntityId>, rank: map<EntityId, nat>) {
    forall e :: e in parent ==> e in rank && parent[e] in rank && rank[parent[e]] < rank[e]
  }

  /** The top-most ancestor of `e`: follow parent links until an entity without parent. */
  ghost function RootOf(parent: map<EntityId, EntityId>, rank: map<EntityId, nat>, e: EntityId): (r: EntityId)
    requires Ranked(parent, rank)
    ensures r !in parent
    ensures e !in parent ==> r == e
    decreases if e in rank then rank[e] else 0
  {
    if e in parent then RootOf(parent, rank, parent[e]) else e
  }

  /** The indices of the engines, among the first `n`, that contain `pos`, in increasing order. */
  function Housing(n: nat, contains: (nat, Vec3) -> bool, pos: Vec3): (h: seq<nat>)
    ensures forall j :: 0 <= j < |h| ==> h[j] < n
    decreases n
  {
    if n == 0 then []
    else Housing(n - 1, contains, pos) + (if contains(n - 1, pos) then [n - 1] else [])
  }

  predicate Increasing(s: seq<nat>) {
    forall a, b :: 0 <= a < b < |s| ==> s[a] < s[b]
  }

  /** Exactly the containing engines are listed, each once, in increasing order. */
  lemma {:induction false} HousingExact(n: nat, contains: (nat, Vec3) -> bool, pos: Vec3)
    ensures forall k: nat :: k in Housing(n, contains, pos) <==> k < n && contains(k, pos)
    ensures Increasing(Housing(n, contains, pos))
    decreases n
  {
    if n > 0 {
      HousingExact(n - 1, contains, pos);
      var h', h := Housing(n - 1, contains, pos), Housing(n, contains, pos);
      if contains(n - 1, pos) {
        forall a, b | 0 <= a < b < |h| ensures h[a] < h[b] {
          assert h[a] == h'[a] && h'[a] in h';
          if b < |h'| {
            assert h[b] == h'[b];
          }
        }
      } else {
        assert h == h';
      }
    }
  }

  /** What the dispatcher decides for the list of containing engines. */
  datatype Verdict = NoHousing | Ambiguous(engines: seq<nat>) | Assign(engines: seq<nat>)

  function Dispatch(housing: seq<nat>, movable: bool): Verdict {
    if housing == [] then NoHousing
    else if !movable then Assign(housing)
    else if |housing| == 1 then Assign(housing)
    else Ambiguous(housing)
  }

  lemma HousingEmpty(n: nat, contains: (nat, Vec3) -> bool, pos: Vec3)
    ensures Housing(n, contains, pos) == [] <==> forall k: nat :: k < n ==> !contains(k, pos)
  {
    var h := Housing(n, contains, pos);
    HousingExact(n, contains, pos);
    if h != [] {
      assert h[0] in h;
    }
  }

  lemma HousingShared(n: nat, contains: (nat, Vec3) -> bool, pos: Vec3)
    ensures |Housing(n, contains, pos)| >= 2 <==>
            exists a: nat, b: nat :: a < b < n && contains(a, pos) && contains(b, pos)
  {
    var h := Housing(n, contains, pos);
    if |h| >= 2 {
      HousingExact(n, contains, pos);
      assert h[0] in h && h[1] in h && h[0] < h[1];
    }
    if exists a: nat, b: nat :: a < b < n && contains(a, pos) && contains(b, pos) {
      var a: nat, b: nat :| a < b < n && contains(a, pos) && contains(b, pos);
      HousingTwo(n, contains, pos, a, b);
    }
  }

  /** Two distinct containing engines make two entries. */
  lemma HousingTwo(n: nat, contains: (nat, Vec3) -> bool, pos: Vec3, a: nat, b: nat)
    requires a < b < n && contains(a, pos) && contains(b, pos)
    ensures |Housing(n, contains, pos)| >= 2
  {
    var h := Housing(n, contains, pos);
    HousingExact(n, contains, pos);
    assert a in h && b in h;
    var ia :| 0 <= ia < |h| && h[ia] == a;
    var ib :| 0 <= ib < |h| && h[ib] == b;
    assert ia != ib;
  }

  lemma HousingSingle(n: nat, contains: (nat, Vec3) -> bool, pos: Vec3)
    requires |Housing(n, contains, pos)| == 1
    ensures var k := Housing(n, contains, pos)[0];
            && Housing(n, contains, pos) == [k] && k < n && contains(k, pos)
            && forall j: nat :: j < n && contains(j, pos) ==> j == k
  {
    var h := Housing(n, contains, pos);
    HousingExact(n, contains, pos);
    assert h == [h[0]];
    assert h[0] in h;
    forall j: nat | j < n && contains(j, pos) ensures j == h[0] {
      assert j in h;
    }
  }

  /**
   * The ownership rule in terms of the engines themselves:
   * dispatch fails with no housing engine iff no engine contains the
   * position; a movable entity is ambiguous iff two engines contain it, and
   * otherwise goes to the one containing engine only; a static entity goes
   * to exactly the engines that contain it.
   */
  lemma DispatchOwnership(n: nat, contains: (nat, Vec3) -> bool, pos: Vec3, movable: bool)
    ensures var v := Dispatch(Housing(n, contains, pos), movable);
            && (v.NoHousing? <==> forall k: nat :: k < n ==> !contains(k, pos))
            && (v.Ambiguous? <==> movable && exists a: nat, b: nat :: a < b < n && contains(a, pos) && contains(b, pos))
            && (v.Assign? && movable ==>
                  (exists k: nat :: k < n && contains(k, pos) && v.engines == [k]
                                  && forall j: nat :: j < n && contains(j, pos) ==> j == k))
            && (v.Assign? && !movable ==> forall k: nat :: k in v.engines <==> k < n && contains(k, pos))
  {
    var h := Housing(n, contains, pos);
    HousingExact(n, contains, pos);
    HousingEmpty(n, contains, pos);
    HousingShared(n, contains, pos);
    if movable && |h| == 1 {
      HousingSingle(n, contains, pos);
      var k := h[0];
      assert k < n && contains(k, pos) && h == [k];
    }
  }

  /** A movable entity never ends up owned by two engines. */
  lemma MovableSingleOwner(n: nat, contains: (nat, Vec3) -> bool, pos: Vec3)
    ensures var v := Dispatch(Housing(n, contains, pos), true);
            v.Assign? ==> |v.engines| == 1
  {
  }
}

=== FILE: distributor.dfy ===
/**
 * The distributor: batch placement of `quantity` copies of one entity
 * template with a position and an orientation generator, retrying each
 * entity after a collision until its trial count exceeds `max_trials`.
 *
 * These functions are the specification the space's `Distribute` method is
 * proved against. The collision check and the random draws are oracles
 * indexed by entity index and trial number; the registry additions and
 * removals are the `World` updates of module Registry.
 */
module Distributor {
  import opened Common
  import opened Registry
  import opened Generators

  // ---------------------------------------------------------------------
  // Identifiers: base id followed by the decimal number i + base_num

  function DigitChar(d: nat): char
    requires d < 10
  {
    (d + '0' as int) as char
  }

  /** The decimal digits of `n`, most significant first, without leading zeros. */
  function Decimal(n: nat): string
    decreases n
  {
    if n < 10 then [DigitChar(n)] else Decimal(n / 10) + [DigitChar(n % 10)]
  }

  /** One digit below ten, more from ten on; the last digit is `n % 10` and the rest spell `n / 10`. */
  lemma DecimalShape(n: nat)
    ensures |Decimal(n)| >= 1
    ensures |Decimal(n)| == 1 <==> n < 10
    ensures Decimal(n)[|Decimal(n)| - 1] == DigitChar(n % 10)
    ensures n >= 10 ==> Decimal(n)[..|Decimal(n)| - 1] == Decimal(n / 10)
  {
    if n >= 10 {
      DecimalShape(n / 10);
    }
  }

  lemma {:induction false} DecimalInjective(m: nat, n: nat)
    requires Decimal(m) == Decimal(n)
    ensures m == n
    decreases m
  {
    DecimalShape(m);
    DecimalShape(n);
    assert (m % 10 + '0' as int) == (n % 10 + '0' as int);
    if m >= 10 && n >= 10 {
      DecimalInjective(m / 10, n / 10);
    }
  }

  datatype EntityShape = EntityShape(isEmbodied: bool, isPositional: bool, isComposable: bool, components: set<string>)

  /** The template of a "distribute" block: entity type, base id and what kind of entity it builds. */
  datatype Template = Template(typ: string, baseId: string, shape: EntityShape)

  function IdFor(baseNum: nat, t: Template, i: nat): EntityId {
    t.baseId + Decimal(i + baseNum)
  }

  /** Two entities of one batch never get the same identifier. */
  lemma IdsDistinct(baseNum: nat, t: Template, i: nat, j: nat)
    requires i != j
    ensures IdFor(baseNum, t, i) != IdFor(baseNum, t, j)
  {
    if IdFor(baseNum, t, i) == IdFor(baseNum, t, j) {
      var n := |t.baseId|;
      assert IdFor(baseNum, t, i)[n..] == Decimal(i + baseNum);
      assert IdFor(baseNum, t, j)[n..] == Decimal(j + baseNum);
      DecimalInjective(i + baseNum, j + baseNum);
    }
  }

  // ---------------------------------------------------------------------
  // Capability of a freshly built entity

  datatype Part = Itself | Component(name: string)

  datatype Capability = Embodied(part: Part) | Positional(part: Part) | Neither

  /** The entity itself if embodied, else its "body" component if it is composable and has one. */
  function EmbodiedPart(s: EntityShape): Option<Part> {
    if s.isEmbodied then Some(Itself)
    else if s.isComposable && "body" in s.components then Some(Component("body"))
    else None
  }

  /** The entity itself if positional, else its "position" component if it is composable and has one. */
  function PositionalPart(s: EntityShape): Option<Part> {
    if s.isPositional then Some(Itself)
    else if s.isComposable && "position" in s.components then Some(Component("position"))
    else None
  }

  /** Embodied is tried before positional, and in each the entity before its component. */
  function Classify(s: EntityShape): (c: Capability)
    ensures c.Embodied? <==> s.isEmbodied || (s.isComposable && "body" in s.components)
    ensures c.Positional? <==> !c.Embodied? && (s.isPositional || (s.isComposable && "position" in s.components))
    ensures c.Neither? <==> EmbodiedPart(s).None? && PositionalPart(s).None?
    ensures c.Embodied? ==> c.part == (if s.isEmbodied then Itself else Component("body"))
    ensures c.Positional? ==> c.part == (if s.isPositional then Itself else Component("position"))
  {
    match EmbodiedPart(s)
    case Some(p) => Embodied(p)
    case None =>
      match PositionalPart(s)
      case Some(p) => Positional(p)
      case None => Neither
  }

  // ---------------------------------------------------------------------
  // The batch and its oracles

  /** A "distribute" block: the two generator nodes, quantity, max_trials, base_num and the first entity template. */
  datatype Batch = Batch(position: GenConfig, orientation: GenConfig, quantity: nat, maxTrials: nat,
                         baseNum: nat, template: Option<Template>)

  /** Collision answers and random draws, indexed by (entity index, trial number). */
  datatype Oracle = Oracle(collides: (nat, nat) -> bool, positionDraw: (nat, nat) -> Vec3, orientationDraw: (nat, nat) -> Vec3)

  // ---------------------------------------------------------------------
  // One attempt (one turn of the do-while loop)

  datatype AttemptKind = Failed(error: Error) | Collided | Settled

  datatype AttemptResult = AttemptResult(kind: AttemptKind, pos: GenState, orient: GenState, world: World)

  /**
   * Draw a position then an orientation with the current retry flag, write
   * them into the candidate's body, then classify: neither embodied nor
   * positional fails; positional is registered with no collision check;
   * embodied is registered, and unregistered again if it collides.
   */
  function Attempt(t: Template, id: EntityId, i: nat, trial: nat, retry: bool,
                   pos: GenState, orient: GenState, o: Oracle, w: World): AttemptResult
  {
    var p := Generate(pos, retry, o.positionDraw(i, trial));
    if p.value.Err? then AttemptResult(Failed(p.value.error), p.next, orient, w)
    else
      var q := Generate(orient, retry, o.orientationDraw(i, trial));
      if q.value.Err? then AttemptResult(Failed(q.value.error), p.next, q.next, w)
      else
        var posed := w.(trace := w.trace + [Posed(id, retry, p.value.value, q.value.value)]);
        var rec := EntityRec(id, t.typ);
        match Classify(t.shape)
        case Neither => AttemptResult(Failed(NotPlaceable(t.typ)), p.next, q.next, posed)
        case Positional(_) => AttemptResult(Settled, p.next, q.next, AddEntity(posed, rec))
        case Embodied(_) =>
          if o.collides(i, trial) then
            AttemptResult(Collided, p.next, q.next, Bounce(posed, rec))
          else AttemptResult(Settled, p.next, q.next, AddEntity(posed, rec))
  }

  /** What one attempt does to the registry, and when it ends in a collision. */
  lemma AttemptEffects(t: Template, id: EntityId, i: nat, trial: nat, retry: bool,
                       pos: GenState, orient: GenState, o: Oracle, w: World)
    ensures var r := Attempt(t, id, i, trial, retry, pos, orient, o, w);
            var rec := EntityRec(id, t.typ);
            && (r.kind.Failed? ==> !r.kind.error.PlacementExhausted?)
            && (r.kind.Collided? <==>
                  (Classify(t.shape).Embodied? && o.collides(i, trial)
                   && Generate(pos, retry, o.positionDraw(i, trial)).value.Ok?
                   && Generate(orient, retry, o.orientationDraw(i, trial)).value.Ok?))
            && (r.kind.Settled? ==> r.world.entities == w.entities + [rec] && r.world.roots == w.roots + [rec])
            && (!r.kind.Settled? ==> r.world.entities == w.entities && r.world.roots == w.roots)
            && w.trace <= r.world.trace
  {
    var p := Generate(pos, retry, o.positionDraw(i, trial));
    var q := Generate(orient, retry, o.orientationDraw(i, trial));
  }

  /**
   * The trace of one attempt gains the pose (with the attempt's retry flag)
   * at most once, and exactly once when the candidate collided.
   */
  lemma AttemptPoses(t: Template, id: EntityId, i: nat, trial: nat, retry: bool,
                     pos: GenState, orient: GenState, o: Oracle, w: World)
    ensures var a := Attempt(t, id, i, trial, retry, pos, orient, o, w);
            var f := RetryFlags(a.world.trace[|w.trace|..]);
            && (f == [] || f == [retry])
            && (a.kind.Collided? ==> f == [retry])
  {
    var a := Attempt(t, id, i, trial, retry, pos, orient, o, w);
    var p := Generate(pos, retry, o.positionDraw(i, trial));
    var q := Generate(orient, retry, o.orientationDraw(i, trial));
    var rec := EntityRec(id, t.typ);
    var mine := a.world.trace[|w.trace|..];
    if p.value.Ok? && q.value.Ok? {
      var posed := Posed(id, retry, p.value.value, q.value.value);
      var rest: seq<Event> := if a.kind.Collided? then [Added(rec), Removed(rec)]
                              else if a.kind.Settled? then [Added(rec)] else [];
      assert a.world.trace == w.trace + [posed] + rest;
      assert mine == [posed] + rest;
      RetryFlagsAppend([posed], rest);
      assert RetryFlags([posed]) == [retry];
      assert RetryFlags(rest) == [] by {
        if rest != [] {
          assert rest[..|rest| - 1] == (if |rest| == 2 then [Added(rec)] else []);
        }
      }
    } else {
      assert mine == [];
    }
  }

  /**
   * With a uniform position law whose `min <= max` and a draw in the unit
   * cube, the pose an attempt writes lies within `[min, max]`.
   */
  lemma AttemptUniformPoseWithinBounds(t: Template, id: EntityId, i: nat, trial: nat, retry: bool,
                                       pos: GenState, orient: GenState, o: Oracle, w: World)
    requires pos.law.Uniform? && LessEq(pos.law.min, pos.law.max) && UnitDraw(o.positionDraw(i, trial))
    ensures var a := Attempt(t, id, i, trial, retry, pos, orient, o, w);
            && w.trace <= a.world.trace
            && forall k :: |w.trace| <= k < |a.world.trace| && a.world.trace[k].Posed? ==>
                 LessEq(pos.law.min, a.world.trace[k].position) && LessEq(a.world.trace[k].position, pos.law.max)
  {
    var a := Attempt(t, id, i, trial, retry, pos, orient, o, w);
    var u := UniformValue(pos.law.min, pos.law.max, o.positionDraw(i, trial));
    UniformWithinBounds(pos.law.min, pos.law.max, o.positionDraw(i, trial));
    var q := Generate(orient, retry, o.orientationDraw(i, trial));
    var rec := EntityRec(id, t.typ);
    if q.value.Ok? {
      var rest: seq<Event> := if a.kind.Collided? then [Added(rec), Removed(rec)]
                              else if a.kind.Settled? then [Added(rec)] else [];
      assert a.world.trace == w.trace + [Posed(id, retry, u, q.value.value)] + rest;
    } else {
      assert a.world.trace == w.trace;
    }
  }

  // ---------------------------------------------------------------------
  // One entity: attempts until settled, failed, or out of trials

  /** `lastTrial` is the trial number of the last attempt made, so `lastTrial + 1` attempts were made from trial 0. */
  datatype Placement = Placement(outcome: Outcome, pos: GenState, orient: GenState, world: World, lastTrial: nat)

  function Place(b: Batch, t: Template, i: nat, trials: nat, retry: bool,
                 pos: GenState, orient: GenState, o: Oracle, w: World): Placement
    requires trials <= b.maxTrials
    decreases b.maxTrials - trials, 1
  {
    Settle(b, t, i, trials, Attempt(t, IdFor(b.baseNum, t, i), i, trials, retry, pos, orient, o, w), o)
  }

  /** The loop condition: a collision is retried while `trials + 1 <= max_trials`, anything else ends the loop. */
  function Settle(b: Batch, t: Template, i: nat, trials: nat, a: AttemptResult, o: Oracle): Placement
    requires trials <= b.maxTrials
    decreases b.maxTrials - trials, 0
  {
    match a.kind
    case Failed(e) => Placement(Fail(e), a.pos, a.orient, a.world, trials)
    case Settled => Placement(Pass, a.pos, a.orient, a.world, trials)
    case Collided =>
      if trials + 1 > b.maxTrials then
        Placement(Fail(PlacementExhausted(t.typ, t.baseId, i)), a.pos, a.orient, a.world, trials)
      else
        Place(b, t, i, trials + 1, true, a.pos, a.orient, o, a.world)
  }

  // ---------------------------------------------------------------------
  // The batch: entity i + 1 only after entity i is placed

  datatype RunResult = RunResult(outcome: Outcome, placed: nat, world: World)

  function Run(b: Batch, t: Template, i: nat, pos: GenState, orient: GenState, o: Oracle, w: World): RunResult
    decreases b.quantity - i
  {
    if i >= b.quantity then RunResult(Pass, i, w)
    else
      var p := Place(b, t, i, 0, false, pos, orient, o, w);
      if p.outcome.Fail? then RunResult(p.outcome, i, p.world)
      else Run(b, t, i + 1, p.pos, p.orient, o, p.world)
  }

  /** The whole block: build both generators, check there is a template, then run the batch. */
  function Distribution(b: Batch, o: Oracle, w: World): RunResult {
    match CreateGenerator(b.position)
    case Err(e) => RunResult(Fail(e), 0, w)
    case Ok(pl) =>
      match CreateGenerator(b.orientation)
      case Err(e) => RunResult(Fail(e), 0, w)
      case Ok(ol) =>
        match b.template
        case None => RunResult(Fail(NoEntityToDistribute), 0, w)
        case Some(t) => Run(b, t, 0, GenState(pl, 0), GenState(ol, 0), o, w)
  }

  /** The records of the first `n` entities of a batch, in order. */
  function PlacedRecs(b: Batch, t: Template, n: nat): seq<EntityRec>
    decreases n
  {
    if n == 0 then [] else PlacedRecs(b, t, n - 1) + [EntityRec(IdFor(b.baseNum, t, n - 1), t.typ)]
  }

  /** Entity `k` of the batch is registered under the k-th identifier, and no identifier is used twice. */
  lemma {:induction false} PlacedRecsDistinct(b: Batch, t: Template, n: nat)
    ensures |PlacedRecs(b, t, n)| == n
    ensures forall k :: 0 <= k < n ==> PlacedRecs(b, t, n)[k] == EntityRec(IdFor(b.baseNum, t, k), t.typ)
    ensures forall k, j :: 0 <= k < j < n ==> PlacedRecs(b, t, n)[k].id != PlacedRecs(b, t, n)[j].id
    decreases n
  {
    if n > 0 {
      PlacedRecsDistinct(b, t, n - 1);
      var r := PlacedRecs(b, t, n);
      forall k, j | 0 <= k < j < n ensures r[k].id != r[j].id {
        IdsDistinct(b.baseNum, t, k, j);
      }
    }
  }

  // ---------------------------------------------------------------------
  // Properties of one entity's placement

  /**
   * At most `max_trials + 1` attempts: the last trial number never exceeds
   * `max_trials`, and running out of trials happens exactly at `max_trials`,
   * with the error naming the entity index as the number placed so far.
   */
  lemma {:induction false} PlaceBounded(b: Batch, t: Template, i: nat, trials: nat, retry: bool,
                                        pos: GenState, orient: GenState, o: Oracle, w: World)
    requires trials <= b.maxTrials
    ensures var p := Place(b, t, i, trials, retry, pos, orient, o, w);
            && trials <= p.lastTrial <= b.maxTrials
            && (p.outcome.Fail? && p.outcome.error.PlacementExhausted? ==>
                  p.lastTrial == b.maxTrials && p.outcome.error == PlacementExhausted(t.typ, t.baseId, i))
    decreases b.maxTrials - trials
  {
    var a := Attempt(t, IdFor(b.baseNum, t, i), i, trials, retry, pos, orient, o, w);
    assert Place(b, t, i, trials, retry, pos, orient, o, w) == Settle(b, t, i, trials, a, o);
    AttemptEffects(t, IdFor(b.baseNum, t, i), i, trials, retry, pos, orient, o, w);
    if a.kind.Collided? && trials + 1 <= b.maxTrials {
      PlaceBounded(b, t, i, trials + 1, true, a.pos, a.orient, o, a.world);
    }
  }

  /**
   * The registry after one entity: on success it holds the entity once more
   * than before (every collided candidate was removed again); on failure it
   * is as before. The trace only grows.
   */
  lemma {:induction false} PlaceRegistry(b: Batch, t: Template, i: nat, trials: nat, retry: bool,
                                         pos: GenState, orient: GenState, o: Oracle, w: World)
    requires trials <= b.maxTrials
    ensures var p := Place(b, t, i, trials, retry, pos, orient, o, w);
            var rec := EntityRec(IdFor(b.baseNum, t, i), t.typ);
            && (p.outcome.Pass? ==> p.world.entities == w.entities + [rec] && p.world.roots == w.roots + [rec])
            && (p.outcome.Fail? ==> p.world.entities == w.entities && p.world.roots == w.roots)
            && w.trace <= p.world.trace
    decreases b.maxTrials - trials
  {
    var a := Attempt(t, IdFor(b.baseNum, t, i), i, trials, retry, pos, orient, o, w);
    assert Place(b, t, i, trials, retry, pos, orient, o, w) == Settle(b, t, i, trials, a, o);
    AttemptEffects(t, IdFor(b.baseNum, t, i), i, trials, retry, pos, orient, o, w);
    if a.kind.Collided? && trials + 1 <= b.maxTrials {
      PlaceRegistry(b, t, i, trials + 1, true, a.pos, a.orient, o, a.world);
    }
  }

  /** Generators that cannot fail: every law but the grid. */
  predicate Unfailing(g: GenState) {
    !g.law.Grid?
  }

  /** With generators that cannot fail, an attempt leaves them as they were and its kind depends only on the collision oracle. */
  lemma UnfailingAttempt(t: Template, id: EntityId, i: nat, trial: nat, retry: bool,
                         pos: GenState, orient: GenState, o: Oracle, w: World)
    requires Unfailing(pos) && Unfailing(orient)
    ensures var a := Attempt(t, id, i, trial, retry, pos, orient, o, w);
            && a.pos == pos && a.orient == orient
            && (Classify(t.shape).Embodied? ==> a.kind == if o.collides(i, trial) then Collided else Settled)
            && (Classify(t.shape).Positional? ==> a.kind == Settled)
            && (Classify(t.shape).Neither? ==> a.kind == Failed(NotPlaceable(t.typ)))
  {
    NonGridNeverFails(pos, retry, o.positionDraw(i, trial));
    NonGridNeverFails(orient, retry, o.orientationDraw(i, trial));
  }

  /**
   * An embodied entity that collides on every attempt fails with the trials
   * exhausted after exactly `max_trials + 1` attempts (with generators that
   * cannot fail themselves).
   */
  lemma {:induction false} PlaceAlwaysColliding(b: Batch, t: Template, i: nat, trials: nat, retry: bool,
                                                pos: GenState, orient: GenState, o: Oracle, w: World)
    requires trials <= b.maxTrials
    requires Classify(t.shape).Embodied? && Unfailing(pos) && Unfailing(orient)
    requires forall tr: nat :: o.collides(i, tr)
    ensures var p := Place(b, t, i, trials, retry, pos, orient, o, w);
            p.outcome == Fail(PlacementExhausted(t.typ, t.baseId, i)) && p.lastTrial == b.maxTrials
    decreases b.maxTrials - trials
  {
    var a := Attempt(t, IdFor(b.baseNum, t, i), i, trials, retry, pos, orient, o, w);
    assert Place(b, t, i, trials, retry, pos, orient, o, w) == Settle(b, t, i, trials, a, o);
    AttemptEffects(t, IdFor(b.baseNum, t, i), i, trials, retry, pos, orient, o, w);
    UnfailingAttempt(t, IdFor(b.baseNum, t, i), i, trials, retry, pos, orient, o, w);
    assert a.kind == Collided;
    if trials + 1 <= b.maxTrials {
      PlaceAlwaysColliding(b, t, i, trials + 1, true, pos, orient, o, a.world);
    }
  }

  /**
   * An embodied entity that collides on trials `trials .. n - 1` and not on
   * trial `n <= max_trials` is placed by its attempt number `n`.
   */
  lemma {:induction false} PlaceCollidesThenSettles(b: Batch, t: Template, i: nat, trials: nat, retry: bool,
                                                    pos: GenState, orient: GenState, o: Oracle, w: World, n: nat)
    requires trials <= n <= b.maxTrials
    requires Classify(t.shape).Embodied? && Unfailing(pos) && Unfailing(orient)
    requires forall tr: nat :: trials <= tr < n ==> o.collides(i, tr)
    requires !o.collides(i, n)
    ensures var p := Place(b, t, i, trials, retry, pos, orient, o, w);
            p.outcome == Pass && p.lastTrial == n
    decreases n - trials
  {
    var a := Attempt(t, IdFor(b.baseNum, t, i), i, trials, retry, pos, orient, o, w);
    assert Place(b, t, i, trials, retry, pos, orient, o, w) == Settle(b, t, i, trials, a, o);
    AttemptEffects(t, IdFor(b.baseNum, t, i), i, trials, retry, pos, orient, o, w);
    UnfailingAttempt(t, IdFor(b.baseNum, t, i), i, trials, retry, pos, orient, o, w);
    if trials < n {
      assert o.collides(i, trials);
      assert a.kind == Collided;
      PlaceCollidesThenSettles(b, t, i, trials + 1, true, pos, orient, o, a.world, n);
    } else {
      assert a.kind == Settled;
    }
  }

  /**
   * A positional-only entity gets exactly one attempt, whatever the collision
   * oracle says and whatever the laws: it is placed iff both generators
   * produced a pose, which generators that cannot fail always do.
   */
  lemma PositionalNeedsNoCollisionCheck(b: Batch, t: Template, i: nat, trials: nat, retry: bool,
                                        pos: GenState, orient: GenState, o: Oracle, w: World,
                                        collides: (nat, nat) -> bool)
    requires trials <= b.maxTrials
    requires Classify(t.shape).Positional?
    ensures var p := Place(b, t, i, trials, retry, pos, orient, o, w);
            && p.lastTrial == trials
            && p == Place(b, t, i, trials, retry, pos, orient, o.(collides := collides), w)
            && (p.outcome == Pass <==> Generate(pos, retry, o.positionDraw(i, trials)).value.Ok?
                                       && Generate(orient, retry, o.orientationDraw(i, trials)).value.Ok?)
    ensures Unfailing(pos) && Unfailing(orient) ==> Place(b, t, i, trials, retry, pos, orient, o, w).outcome == Pass
  {
    if Unfailing(pos) && Unfailing(orient) {
      NonGridNeverFails(pos, retry, o.positionDraw(i, trials));
      NonGridNeverFails(orient, retry, o.orientationDraw(i, trials));
    }
  }

  /**
   * An entity that is neither embodied nor positional fails at its first
   * attempt, whatever the laws; with generators that cannot fail it is the
   * not-placeable error.
   */
  lemma NeitherIsNotPlaceable(b: Batch, t: Template, i: nat, pos: GenState, orient: GenState, o: Oracle, w: World)
    requires Classify(t.shape).Neither?
    ensures var p := Place(b, t, i, 0, false, pos, orient, o, w);
            p.outcome.Fail? && p.lastTrial == 0
    ensures Unfailing(pos) && Unfailing(orient) ==>
              Place(b, t, i, 0, false, pos, orient, o, w).outcome == Fail(NotPlaceable(t.typ))
  {
    if Unfailing(pos) && Unfailing(orient) {
      UnfailingAttempt(t, IdFor(b.baseNum, t, i), i, 0, false, pos, orient, o, w);
    }
  }

  /**
   * A grid position generator cannot retry: once an embodied entity
   * collides on its first attempt and trials remain, the second attempt
   * fails with the retry refused.
   */
  lemma GridCollisionIsFatal(b: Batch, t: Template, i: nat, center: Vec3, l: Layout, d: Vec3, placed: nat,
                             orient: GenState, o: Oracle, w: World)
    requires 1 <= b.maxTrials && ValidLayout(l) && placed < Capacity(l)
    requires Classify(t.shape).Embodied? && Unfailing(orient)
    requires o.collides(i, 0)
    ensures var p := Place(b, t, i, 0, false, GenState(Grid(center, l, d), placed), orient, o, w);
            p.outcome == Fail(GridRetryUnsupported(placed + 1)) && p.lastTrial == 1
  {
    var g := GenState(Grid(center, l, d), placed);
    var id := IdFor(b.baseNum, t, i);
    GridStepping(center, l, d, placed, false, o.positionDraw(i, 0));
    GridStepping(center, l, d, placed + 1, true, o.positionDraw(i, 1));
    NonGridNeverFails(orient, false, o.orientationDraw(i, 0));
    var a := Attempt(t, id, i, 0, false, g, orient, o, w);
    assert a.kind == Collided && a.pos == GenState(g.law, placed + 1) && a.orient == orient;
    var a' := Attempt(t, id, i, 1, true, a.pos, orient, o, a.world);
    assert a'.kind == Failed(GridRetryUnsupported(placed + 1));
    calc {
      Place(b, t, i, 0, false, g, orient, o, w);
      Settle(b, t, i, 0, a, o);
      Place(b, t, i, 1, true, a.pos, orient, o, a.world);
      Settle(b, t, i, 1, a', o);
    }
  }

  // ---------------------------------------------------------------------
  // Retry flags of the attempts, in order

  /** The retry flags of the poses written, in trace order. */
  function RetryFlags(ev: seq<Event>): seq<bool>
    decreases |ev|
  {
    if ev == [] then []
    else RetryFlags(ev[..|ev| - 1]) + (if ev[|ev| - 1].Posed? then [ev[|ev| - 1].retry] else [])
  }

  lemma {:induction false} RetryFlagsAppend(a: seq<Event>, c: seq<Event>)
    ensures RetryFlags(a + c) == RetryFlags(a) + RetryFlags(c)
    decreases |c|
  {
    if c == [] {
      assert a + c == a;
    } else {
      var c' := c[..|c| - 1];
      assert (a + c)[..|a + c| - 1] == a + c';
      assert (a + c)[|a + c| - 1] == c[|c| - 1];
      RetryFlagsAppend(a, c');
    }
  }

  lemma PrefixSlices(x: seq<Event>, y: seq<Event>, z: seq<Event>)
    requires x <= y <= z
    ensures z[|x|..] == y[|x|..] + z[|y|..]
  {
  }

  /** One pose flag `trials > 0` followed by the flags of the later attempts, all true. */
  lemma FlagsCombine(mine: seq<Event>, rest: seq<Event>, trials: nat)
    requires RetryFlags(mine) == [trials > 0]
    requires forall j :: 0 <= j < |RetryFlags(rest)| ==> RetryFlags(rest)[j] == (trials + 1 + j > 0)
    ensures |RetryFlags(mine + rest)| == 1 + |RetryFlags(rest)|
    ensures forall j :: 0 <= j < |RetryFlags(mine + rest)| ==> RetryFlags(mine + rest)[j] == (trials + j > 0)
  {
    RetryFlagsAppend(mine, rest);
  }

  /**
   * The poses of one entity's attempts are written first with retry =
   * false and then always with retry = true, one per attempt at most.
   */
  lemma {:induction false} PlaceRetryFlags(b: Batch, t: Template, i: nat, trials: nat,
                                           pos: GenState, orient: GenState, o: Oracle, w: World)
    requires trials <= b.maxTrials
    ensures var p := Place(b, t, i, trials, trials > 0, pos, orient, o, w);
            && w.trace <= p.world.trace
            && var f := RetryFlags(p.world.trace[|w.trace|..]);
               && |f| <= p.lastTrial - trials + 1
               && forall j :: 0 <= j < |f| ==> f[j] == (trials + j > 0)
    decreases b.maxTrials - trials
  {
    var retry := trials > 0;
    var id := IdFor(b.baseNum, t, i);
    var a := Attempt(t, id, i, trials, retry, pos, orient, o, w);
    var p := Place(b, t, i, trials, retry, pos, orient, o, w);
    AttemptPoses(t, id, i, trials, retry, pos, orient, o, w);
    AttemptEffects(t, id, i, trials, retry, pos, orient, o, w);
    assert p == Settle(b, t, i, trials, a, o);
    if a.kind.Collided? && trials + 1 <= b.maxTrials {
      assert p == Place(b, t, i, trials + 1, true, a.pos, a.orient, o, a.world);
      PlaceRetryFlags(b, t, i, trials + 1, a.pos, a.orient, o, a.world);
      PrefixSlices(w.trace, a.world.trace, p.world.trace);
      FlagsCombine(a.world.trace[|w.trace|..], p.world.trace[|a.world.trace|..], trials);
    } else {
      assert p.world == a.world && p.lastTrial == trials;
      assert RetryFlags(p.world.trace[|w.trace|..]) == RetryFlags(a.world.trace[|w.trace|..]);
    }
  }

  // ---------------------------------------------------------------------
  // Properties of the batch

  /**
   * The batch places entities 0, 1, 2, ... and stops at the first failure:
   * it succeeds only with all `quantity` placed, and a trial exhaustion
   * reports exactly the number placed.
   */
  lemma {:induction false} RunCounts(b: Batch, t: Template, i: nat, pos: GenState, orient: GenState, o: Oracle, w: World)
    requires i <= b.quantity
    ensures var r := Run(b, t, i, pos, orient, o, w);
            && i <= r.placed <= b.quantity
            && (r.outcome.Pass? ==> r.placed == b.quantity)
            && (r.outcome.Fail? && r.outcome.error.PlacementExhausted? ==> r.outcome.error.placed == r.placed)
    decreases b.quantity - i
  {
    var r := Run(b, t, i, pos, orient, o, w);
    if i < b.quantity {
      var p := Place(b, t, i, 0, false, pos, orient, o, w);
      PlaceBounded(b, t, i, 0, false, pos, orient, o, w);
      if p.outcome.Pass? {
        assert r == Run(b, t, i + 1, p.pos, p.orient, o, p.world);
        RunCounts(b, t, i + 1, p.pos, p.orient, o, p.world);
      } else {
        assert r == RunResult(p.outcome, i, p.world);
      }
    } else {
      assert r == RunResult(Pass, i, w);
    }
  }

  /** The registry gains exactly the placed entities, in order, and the trace only grows. */
  lemma {:induction false} RunRegistry(b: Batch, t: Template, i: nat, pos: GenState, orient: GenState,
                                       o: Oracle, w: World, E: seq<EntityRec>, R: seq<EntityRec>)
    requires w.entities == E + PlacedRecs(b, t, i) && w.roots == R + PlacedRecs(b, t, i)
    ensures var r := Run(b, t, i, pos, orient, o, w);
            && r.world.entities == E + PlacedRecs(b, t, r.placed)
            && r.world.roots == R + PlacedRecs(b, t, r.placed)
            && w.trace <= r.world.trace
    decreases b.quantity - i
  {
    var r := Run(b, t, i, pos, orient, o, w);
    if i < b.quantity {
      var p := Place(b, t, i, 0, false, pos, orient, o, w);
      PlaceRegistry(b, t, i, 0, false, pos, orient, o, w);
      if p.outcome.Pass? {
        assert r == Run(b, t, i + 1, p.pos, p.orient, o, p.world);
        var rec := EntityRec(IdFor(b.baseNum, t, i), t.typ);
        assert p.world.entities == E + PlacedRecs(b, t, i + 1) by {
          assert PlacedRecs(b, t, i + 1) == PlacedRecs(b, t, i) + [rec];
          assert p.world.entities == (E + PlacedRecs(b, t, i)) + [rec];
        }
        assert p.world.roots == R + PlacedRecs(b, t, i + 1) by {
          assert PlacedRecs(b, t, i + 1) == PlacedRecs(b, t, i) + [rec];
          assert p.world.roots == (R + PlacedRecs(b, t, i)) + [rec];
        }
        RunRegistry(b, t, i + 1, p.pos, p.orient, o, p.world, E, R);
      } else {
        assert r == RunResult(p.outcome, i, p.world);
      }
    } else {
      assert r == RunResult(Pass, i, w);
    }
  }

  /** The whole block in terms of its input registry. */
  lemma DistributionPlacesInOrder(b: Batch, o: Oracle, w: World)
    ensures var r := Distribution(b, o, w);
            && r.placed <= b.quantity
            && (r.outcome.Pass? ==> r.placed == b.quantity && b.template.Some?)
            && (r.outcome.Fail? && r.outcome.error.PlacementExhausted? ==> r.outcome.error.placed == r.placed)
            && (b.template.Some? ==> r.world.entities == w.entities + PlacedRecs(b, b.template.value, r.placed))
            && (b.template.None? ==> r.world == w)
            && w.trace <= r.world.trace
  {
    if b.template.Some? {
      var t := b.template.value;
      assert w.entities == w.entities + PlacedRecs(b, t, 0);
      assert w.roots == w.roots + PlacedRecs(b, t, 0);
      match CreateGenerator(b.position)
      case Err(_) =>
      case Ok(pl) =>
        match CreateGenerator(b.orientation)
        case Err(_) =>
        case Ok(ol) =>
          RunCounts(b, t, 0, GenState(pl, 0), GenState(ol, 0), o, w);
          RunRegistry(b, t, 0, GenState(pl, 0), GenState(ol, 0), o, w, w.entities, w.roots);
    }
  }

  // ---------------------------------------------------------------------
  // The placement loop as the original writes it for positional entities

  /**
   * The do-while loop with the positional-only branch as written: the
   * entity is registered but the loop is not told it is done, so it goes
   * round again with the same trial count and retry flag. `fuel` bounds the
   * number of turns; `None` means the loop had not finished when it ran out.
   */
  function PlaceAsWritten(b: Batch, t: Template, i: nat, trials: nat, retry: bool,
                          pos: GenState, orient: GenState, o: Oracle, w: World, fuel: nat): Option<Placement>
    requires trials <= b.maxTrials
    decreases fuel
  {
    if fuel == 0 then None
    else
      var a := Attempt(t, IdFor(b.baseNum, t, i), i, trials, retry, pos, orient, o, w);
      match a.kind
      case Failed(e) => Some(Placement(Fail(e), a.pos, a.orient, a.world, trials))
      case Settled =>
        if Classify(t.shape).Positional? then PlaceAsWritten(b, t, i, trials, retry, a.pos, a.orient, o, a.world, fuel - 1)
        else Some(Placement(Pass, a.pos, a.orient, a.world, trials))
      case Collided =>
        if trials + 1 > b.maxTrials then
          Some(Placement(Fail(PlacementExhausted(t.typ, t.baseId, i)), a.pos, a.orient, a.world, trials))
        else PlaceAsWritten(b, t, i, trials + 1, true, a.pos, a.orient, o, a.world, fuel - 1)
  }

  /**
   * As written, the loop is never told that a positional-only entity with
   * generators that cannot fail is done: each turn registers the same
   * identifier once more, so under the append-only registry of module
   * Registry no number of turns ends the loop.
   */
  lemma {:induction false} PositionalLoopsForeverAsWritten(b: Batch, t: Template, i: nat, trials: nat, retry: bool,
                                                           pos: GenState, orient: GenState, o: Oracle, w: World, fuel: nat)
    requires trials <= b.maxTrials
    requires Classify(t.shape).Positional? && Unfailing(pos) && Unfailing(orient)
    ensures PlaceAsWritten(b, t, i, trials, retry, pos, orient, o, w, fuel) == None
    decreases fuel
  {
    if fuel > 0 {
      var id := IdFor(b.baseNum, t, i);
      var a := Attempt(t, id, i, trials, retry, pos, orient, o, w);
      UnfailingAttempt(t, id, i, trials, retry, pos, orient, o, w);
      PositionalLoopsForeverAsWritten(b, t, i, trials, retry, pos, orient, o, a.world, fuel - 1);
    }
  }

  // ---------------------------------------------------------------------
  // The trial counter as the original computes it, in 32-bit unsigned arithmetic

  /** `++unTrials` on a UInt32. */
  function TrialsAfterCollisionAsWritten(trials: nat): nat {
    (trials + 1) % UINT32_MODULUS
  }

  /**
   * The placement loop with the trial counter as written: after a collision
   * the UInt32 counter is incremented and compared with max_trials; every
   * other branch is as in `Place`. `fuel` bounds the number of turns; `None`
   * means the loop had not finished when it ran out.
   */
  function PlaceWrappingAsWritten(b: Batch, t: Template, i: nat, trials: nat, retry: bool,
                                  pos: GenState, orient: GenState, o: Oracle, w: World, fuel: nat): Option<Placement>
    decreases fuel
  {
    if fuel == 0 then None
    else
      var a := Attempt(t, IdFor(b.baseNum, t, i), i, trials, retry, pos, orient, o, w);
      match a.kind
      case Failed(e) => Some(Placement(Fail(e), a.pos, a.orient, a.world, trials))
      case Settled => Some(Placement(Pass, a.pos, a.orient, a.world, trials))
      case Collided =>
        var next := TrialsAfterCollisionAsWritten(trials);
        if next > b.maxTrials then
          Some(Placement(Fail(PlacementExhausted(t.typ, t.baseId, i)), a.pos, a.orient, a.world, trials))
        else PlaceWrappingAsWritten(b, t, i, next, true, a.pos, a.orient, o, a.world, fuel - 1)
  }

  /**
   * With max_trials = 4294967295 the test `unTrials > unMaxTrials` can
   * never succeed, because the counter wraps to 0 after its last value: an
   * embodied entity that always collides is retried for as many turns as
   * one allows.
   */
  lemma {:induction false} TrialCheckNeverFiresAsWritten(b: Batch, t: Template, i: nat, trials: nat, retry: bool,
                                                         pos: GenState, orient: GenState, o: Oracle, w: World, fuel: nat)
    requires b.maxTrials == UINT32_MODULUS - 1 && trials < UINT32_MODULUS
    requires Classify(t.shape).Embodied? && Unfailing(pos) && Unfailing(orient)
    requires forall tr: nat :: o.collides(i, tr)
    ensures PlaceWrappingAsWritten(b, t, i, trials, retry, pos, orient, o, w, fuel) == None
    decreases fuel
  {
    if fuel > 0 {
      var id := IdFor(b.baseNum, t, i);
      var a := Attempt(t, id, i, trials, retry, pos, orient, o, w);
      UnfailingAttempt(t, id, i, trials, retry, pos, orient, o, w);
      assert a.kind == Collided;
      TrialCheckNeverFiresAsWritten(b, t, i, TrialsAfterCollisionAsWritten(trials), true, pos, orient, o, a.world, fuel - 1);
    }
  }
}

=== FILE: generators.dfy ===
/**
 * The pose generators a "distribute" block uses for positions and
 * orientations: constant, uniform, gaussian and grid laws, the validation
 * that creates them from a configuration node, and the grid's stateful
 * counter.
 *
 * The random number generator is an oracle: each call receives a `draw`.
 * For the uniform law the draw is, per axis, the fraction `u` of the way from
 * `min` to `max`; every value of `[min, max]` is reached by some `u` in
 * `[0, 1]` (see UniformReachesEveryValue). For the gaussian law the draw is
 * the sampled value itself, unconstrained.
 */
module Generators {
  import opened Common

  datatype Layout = Layout(nx: nat, ny: nat, nz: nat)

  datatype Law =
    | Constant(value: Vec3)
    | Uniform(min: Vec3, max: Vec3)
    | Gaussian(mean: Vec3, stdDev: Vec3)
    | Grid(center: Vec3, layout: Layout, distances: Vec3)

  /**
   * A parsed `position` or `orientation` node: its `method` attribute, the
   * vector attributes it carries, and its `layout` attribute if present.
   */
  datatype GenConfig = GenConfig(methodName: string, vectors: map<string, Vec3>, layout: Option<Layout>)

  function Attribute(cfg: GenConfig, name: string): (r: Result<Vec3>)
    ensures r.Ok? <==> name in cfg.vectors
    ensures r.Ok? ==> r.value == cfg.vectors[name]
    ensures r.Err? ==> r.error == MissingAttribute(name)
  {
    if name in cfg.vectors then Ok(cfg.vectors[name]) else Err(MissingAttribute(name))
  }

  predicate ValidLayout(l: Layout) {
    l.nx != 0 && l.ny != 0 && l.nz != 0
  }

  predicate HasVectors(cfg: GenConfig, a: string, b: string) {
    a in cfg.vectors && b in cfg.vectors
  }

  /**
   * Builds the law a node asks for. Uniform needs `min <= max`
   * component-wise; grid needs a layout with no zero component; any other
   * method name is refused.
   */
  function CreateGenerator(cfg: GenConfig): (r: Result<Law>)
    ensures cfg.methodName == "uniform" ==>
              (r.Ok? <==> HasVectors(cfg, "min", "max") && LessEq(cfg.vectors["min"], cfg.vectors["max"]))
    ensures cfg.methodName == "uniform" && r.Ok? ==> r.value == Uniform(cfg.vectors["min"], cfg.vectors["max"])
    ensures cfg.methodName == "uniform" && HasVectors(cfg, "min", "max") && !LessEq(cfg.vectors["min"], cfg.vectors["max"]) ==>
              r == Err(InvalidRange(cfg.vectors["min"], cfg.vectors["max"]))
    ensures cfg.methodName == "gaussian" ==> (r.Ok? <==> HasVectors(cfg, "mean", "std_dev"))
    ensures cfg.methodName == "gaussian" && r.Ok? ==> r.value == Gaussian(cfg.vectors["mean"], cfg.vectors["std_dev"])
    ensures cfg.methodName == "constant" ==> (r.Ok? <==> "values" in cfg.vectors)
    ensures cfg.methodName == "constant" && r.Ok? ==> r.value == Constant(cfg.vectors["values"])
    ensures cfg.methodName == "grid" ==>
              (r.Ok? <==> HasVectors(cfg, "center", "distances") && cfg.layout.Some? && ValidLayout(cfg.layout.value))
    ensures cfg.methodName == "grid" && r.Ok? ==>
              r.value == Grid(cfg.vectors["center"], cfg.layout.value, cfg.vectors["distances"])
    ensures cfg.methodName == "grid" && HasVectors(cfg, "center", "distances") && cfg.layout.None? ==>
              r == Err(MissingAttribute("layout"))
    ensures (cfg.methodName == "grid" && HasVectors(cfg, "center", "distances") && cfg.layout.Some?
             && !ValidLayout(cfg.layout.value)) ==> r == Err(InvalidLayout)
    ensures cfg.methodName !in {"uniform", "gaussian", "constant", "grid"} ==> r == Err(UnknownMethod(cfg.methodName))
    ensures r.Ok? && r.value.Uniform? ==> LessEq(r.value.min, r.value.max)
    ensures r.Ok? && r.value.Grid? ==> ValidLayout(r.value.layout)
  {
    if cfg.methodName == "uniform" then
      match Attribute(cfg, "min")
      case Err(e) => Err(e)
      case Ok(min) =>
        match Attribute(cfg, "max")
        case Err(e) => Err(e)
        case Ok(max) => if !LessEq(min, max) then Err(InvalidRange(min, max)) else Ok(Uniform(min, max))
    else if cfg.methodName == "gaussian" then
      match Attribute(cfg, "mean")
      case Err(e) => Err(e)
      case Ok(mean) =>
        match Attribute(cfg, "std_dev")
        case Err(e) => Err(e)
        case Ok(sd) => Ok(Gaussian(mean, sd))
    else if cfg.methodName == "constant" then
      match Attribute(cfg, "values")
      case Err(e) => Err(e)
      case Ok(v) => Ok(Constant(v))
    else if cfg.methodName == "grid" then
      match Attribute(cfg, "center")
      case Err(e) => Err(e)
      case Ok(center) =>
        match Attribute(cfg, "distances")
        case Err(e) => Err(e)
        case Ok(distances) =>
          match cfg.layout
          case None => Err(MissingAttribute("layout"))
          case Some(l) => if !ValidLayout(l) then Err(InvalidLayout) else Ok(Grid(center, l, distances))
    else
      Err(UnknownMethod(cfg.methodName))
  }

  // ---------------------------------------------------------------------
  // Uniform law

  /** One axis of the uniform law: a draw in the range, or `max` itself when the range is empty or degenerate. */
  function UniformAxis(min: real, max: real, u: real): real {
    if max > min then min + u * (max - min) else max
  }

  function UniformValue(min: Vec3, max: Vec3, u: Vec3): Vec3 {
    Vec3(UniformAxis(min.x, max.x, u.x), UniformAxis(min.y, max.y, u.y), UniformAxis(min.z, max.z, u.z))
  }

  predicate UnitDraw(u: Vec3) {
    0.0 <= u.x <= 1.0 && 0.0 <= u.y <= 1.0 && 0.0 <= u.z <= 1.0
  }

  lemma UniformAxisBounds(min: real, max: real, u: real)
    requires min <= max && 0.0 <= u <= 1.0
    ensures min <= UniformAxis(min, max, u) <= max
    ensures max <= min ==> UniformAxis(min, max, u) == max
  {
    if max > min {
      var span := max - min;
      assert 0.0 <= u * span by {
        assert u >= 0.0 && span > 0.0;
      }
      assert u * span <= span by {
        assert (1.0 - u) * span >= 0.0;
      }
    }
  }

  /** With `min <= max` component-wise, every uniform output lies in `[min, max]` on every axis. */
  lemma UniformWithinBounds(min: Vec3, max: Vec3, u: Vec3)
    requires LessEq(min, max) && UnitDraw(u)
    ensures LessEq(min, UniformValue(min, max, u)) && LessEq(UniformValue(min, max, u), max)
  {
    UniformAxisBounds(min.x, max.x, u.x);
    UniformAxisBounds(min.y, max.y, u.y);
    UniformAxisBounds(min.z, max.z, u.z);
  }

  /** An axis whose range is degenerate (`max <= min`) always yields exactly `max`, whatever is drawn. */
  lemma UniformDegenerateAxis(min: Vec3, max: Vec3, u: Vec3)
    ensures max.x <= min.x ==> UniformValue(min, max, u).x == max.x
    ensures max.y <= min.y ==> UniformValue(min, max, u).y == max.y
    ensures max.z <= min.z ==> UniformValue(min, max, u).z == max.z
  {
  }

  function AxisFraction(min: real, max: real, v: real): real {
    if max > min then (v - min) / (max - min) else 0.0
  }

  /** Every value of `[min, max]` is produced by some unit draw, so the fraction model loses no outcome. */
  lemma UniformReachesEveryValue(min: Vec3, max: Vec3, v: Vec3)
    requires LessEq(min, v) && LessEq(v, max)
    ensures var u := Vec3(AxisFraction(min.x, max.x, v.x), AxisFraction(min.y, max.y, v.y), AxisFraction(min.z, max.z, v.z));
            UnitDraw(u) && UniformValue(min, max, u) == v
  {
    AxisFractionInverse(min.x, max.x, v.x);
    AxisFractionInverse(min.y, max.y, v.y);
    AxisFractionInverse(min.z, max.z, v.z);
  }

  lemma AxisFractionInverse(min: real, max: real, v: real)
    requires min <= v <= max
    ensures 0.0 <= AxisFraction(min, max, v) <= 1.0
    ensures UniformAxis(min, max, AxisFraction(min, max, v)) == v
  {
    if max > min {
      var span := max - min;
      var u := (v - min) / span;
      assert u * span == v - min;
      assert u <= 1.0 by {
        assert v - min <= span;
      }
    }
  }

  // ---------------------------------------------------------------------
  // Grid law: mixed-radix decomposition of the placement counter

  function Capacity(l: Layout): nat {
    l.nx * l.ny * l.nz
  }

  datatype Cell = Cell(i: nat, j: nat, k: nat)

  predicate InLayout(l: Layout, c: Cell) {
    c.i < l.nx && c.j < l.ny && c.k < l.nz
  }

  /** The cell of the k-th placement: `k mod nx` on X, `(k / nx) mod ny` on Y, `k / (nx * ny)` on Z. */
  function CellOf(l: Layout, n: nat): Cell
    requires l.nx > 0 && l.ny > 0
  {
    Cell(n % l.nx, (n / l.nx) % l.ny, n / (l.nx * l.ny))
  }

  /** The placement index of a cell: the inverse decomposition. */
  function IndexOf(l: Layout, c: Cell): nat {
    c.i + l.nx * (c.j + l.ny * c.k)
  }

  lemma MulMono(a: int, x: int, y: int)
    requires a >= 0 && x <= y
    ensures a * x <= a * y
  {
    assert a * y - a * x == a * (y - x);
  }

  lemma DivModUnique(n: int, d: int, q: int, r: int)
    requires d > 0 && 0 <= r < d && n == d * q + r
    ensures n / d == q && n % d == r
  {
    var q', r' := n / d, n % d;
    assert d * q' + r' == n;
    if q' > q {
      MulMono(d, q + 1, q');
      assert false;
    } else if q' < q {
      MulMono(d, q' + 1, q);
      assert false;
    }
  }

  lemma DivDiv(n: nat, a: nat, b: nat)
    requires a > 0 && b > 0
    ensures a * b > 0
    ensures n / (a * b) == (n / a) / b
  {
    MulMono(a, 1, b);
    var q := n / a;
    var s := n % a;
    var Q := q / b;
    var R := q % b;
    assert n == a * q + s;
    assert q == b * Q + R;
    assert a * q == a * (b * Q + R) == (a * b) * Q + a * R;
    MulMono(a, R, b - 1);
    assert a * (b - 1) == a * b - a;
    DivModUnique(n, a * b, Q, a * R + s);
  }

  /** The decomposition followed by recomposition gives the index back. */
  lemma {:induction false} IndexOfCellOf(l: Layout, n: nat)
    requires l.nx > 0 && l.ny > 0
    ensures IndexOf(l, CellOf(l, n)) == n
  {
    var q := n / l.nx;
    DivDiv(n, l.nx, l.ny);
    assert q == l.ny * (q / l.ny) + q % l.ny;
    assert n == l.nx * q + n % l.nx;
    var c := CellOf(l, n);
    assert c.j + l.ny * c.k == q;
  }

  /** Every in-layout cell is the decomposition of its own index. */
  lemma {:induction false} CellOfIndexOf(l: Layout, c: Cell)
    requires ValidLayout(l) && InLayout(l, c)
    ensures CellOf(l, IndexOf(l, c)) == c
  {
    var q := c.j + l.ny * c.k;
    var n := IndexOf(l, c);
    DivModUnique(n, l.nx, q, c.i);
    DivModUnique(q, l.ny, c.k, c.j);
    DivDiv(n, l.nx, l.ny);
  }

  lemma {:induction false} IndexBelowCapacity(l: Layout, c: Cell)
    requires ValidLayout(l) && InLayout(l, c)
    ensures IndexOf(l, c) < Capacity(l)
  {
    MulMono(l.ny, c.k, l.nz - 1);
    assert c.j + l.ny * c.k <= l.ny * l.nz - 1;
    MulMono(l.nx, c.j + l.ny * c.k, l.ny * l.nz - 1);
    assert l.nx * (l.ny * l.nz - 1) == l.nx * l.ny * l.nz - l.nx;
  }

  lemma {:induction false} CellWithinLayout(l: Layout, n: nat)
    requires ValidLayout(l) && n < Capacity(l)
    ensures InLayout(l, CellOf(l, n))
  {
    var c := CellOf(l, n);
    MulMono(l.nx, 1, l.ny);
    var ab := l.nx * l.ny;
    assert n == ab * c.k + n % ab;
    if c.k >= l.nz {
      MulMono(ab, l.nz, c.k);
      assert false;
    }
  }

  /**
   * The grid visits exactly `nx * ny * nz` cells: indices below the capacity
   * and in-layout cells correspond one to one.
   */
  lemma {:induction false} GridCellsBijective(l: Layout, n1: nat, n2: nat, c: Cell)
    requires ValidLayout(l)
    ensures n1 < Capacity(l) ==> InLayout(l, CellOf(l, n1))
    ensures n1 < Capacity(l) && n2 < Capacity(l) && CellOf(l, n1) == CellOf(l, n2) ==> n1 == n2
    ensures InLayout(l, c) ==> IndexOf(l, c) < Capacity(l) && CellOf(l, IndexOf(l, c)) == c
  {
    if n1 < Capacity(l) {
      CellWithinLayout(l, n1);
    }
    IndexOfCellOf(l, n1);
    IndexOfCellOf(l, n2);
    if InLayout(l, c) {
      IndexBelowCapacity(l, c);
      CellOfIndexOf(l, c);
    }
  }

  /** The offset from the grid center along one axis: `(n - 1) / 2 * d - i * d`. */
  function AxisOffset(n: nat, i: nat, d: real): real {
    (n - 1) as real * d * 0.5 - i as real * d
  }

  function Abs(d: real): real {
    if d < 0.0 then -d else d
  }

  /** Each axis offset lies within `[-(n-1)/2 * |d|, (n-1)/2 * |d|]` and mirrors around the center. */
  lemma AxisOffsetCentered(n: nat, i: nat, d: real)
    requires i < n
    ensures -((n - 1) as real * Abs(d) * 0.5) <= AxisOffset(n, i, d) <= (n - 1) as real * Abs(d) * 0.5
    ensures AxisOffset(n, i, d) == -AxisOffset(n, n - 1 - i, d)
  {
    var h := (n - 1) as real * 0.5;
    var t := h - i as real;
    assert AxisOffset(n, i, d) == t * d;
    assert -h <= t <= h;
    if d >= 0.0 {
      assert t * d <= h * d by { assert (h - t) * d >= 0.0; }
      assert -h * d <= t * d by { assert (t + h) * d >= 0.0; }
    } else {
      assert t * d <= -h * d by { assert (t + h) * (-d) >= 0.0; }
      assert h * d <= t * d by { assert (h - t) * (-d) >= 0.0; }
    }
  }

  lemma AxisOffsetInjective(n: nat, i1: nat, i2: nat, d: real)
    requires d != 0.0 && i1 != i2
    ensures AxisOffset(n, i1, d) != AxisOffset(n, i2, d)
  {
    assert AxisOffset(n, i1, d) - AxisOffset(n, i2, d) == (i2 as real - i1 as real) * d;
  }

  function CellPosition(center: Vec3, l: Layout, d: Vec3, c: Cell): Vec3 {
    Vec3(center.x + AxisOffset(l.nx, c.i, d.x),
         center.y + AxisOffset(l.ny, c.j, d.y),
         center.z + AxisOffset(l.nz, c.k, d.z))
  }

  /**
   * With non-zero spacing along every axis that has more than one cell,
   * distinct placement indices below the capacity land on distinct
   * positions; an axis with a single cell (the planar grid's z, say) may
   * have zero spacing.
   */
  lemma {:induction false} GridPositionsDistinct(center: Vec3, l: Layout, d: Vec3, n1: nat, n2: nat)
    requires ValidLayout(l)
    requires (l.nx > 1 ==> d.x != 0.0) && (l.ny > 1 ==> d.y != 0.0) && (l.nz > 1 ==> d.z != 0.0)
    requires n1 < Capacity(l) && n2 < Capacity(l) && n1 != n2
    ensures CellPosition(center, l, d, CellOf(l, n1)) != CellPosition(center, l, d, CellOf(l, n2))
  {
    var c1, c2 := CellOf(l, n1), CellOf(l, n2);
    GridCellsBijective(l, n1, n2, c1);
    CellWithinLayout(l, n1);
    CellWithinLayout(l, n2);
    if c1.i != c2.i {
      AxisOffsetInjective(l.nx, c1.i, c2.i, d.x);
    } else if c1.j != c2.j {
      AxisOffsetInjective(l.ny, c1.j, c2.j, d.y);
    } else {
      AxisOffsetInjective(l.nz, c1.k, c2.k, d.z);
    }
  }

  // ---------------------------------------------------------------------
  // One call of a generator

  /** A generator's state: its law, and the grid's placement counter (unused by the other laws). */
  datatype GenState = GenState(law: Law, placed: nat)

  datatype Step = Step(value: Result<Vec3>, next: GenState)

  /** One call `generator(isRetry)` with the oracle `draw` for the random laws. */
  function Generate(g: GenState, isRetry: bool, draw: Vec3): Step {
    match g.law
    case Constant(v) => Step(Ok(v), g)
    case Uniform(min, max) => Step(Ok(UniformValue(min, max, draw)), g)
    case Gaussian(_, _) => Step(Ok(draw), g)
    case Grid(center, l, d) =>
      if isRetry then Step(Err(GridRetryUnsupported(g.placed)), g)
      else if g.placed < Capacity(l) then
        Step(Ok(CellPosition(center, l, d, CellOf(l, g.placed))), GenState(g.law, g.placed + 1))
      else Step(Err(GridExhausted), g)
  }

  /** The constant law returns its value whether or not the call is a retry. */
  lemma ConstantIgnoresRetry(v: Vec3, placed: nat, retry: bool, draw: Vec3)
    ensures Generate(GenState(Constant(v), placed), retry, draw).value == Ok(v)
  {
  }

  /** Only the grid law can fail, and only the grid law has state to advance. */
  lemma NonGridNeverFails(g: GenState, retry: bool, draw: Vec3)
    requires !g.law.Grid?
    ensures Generate(g, retry, draw).value.Ok? && Generate(g, retry, draw).next == g
  {
  }

  /**
   * Grid stepping: a retry always fails; below the capacity the k-th call
   * returns cell k and advances the counter; at the capacity it fails and
   * the counter stays.
   */
  lemma GridStepping(center: Vec3, l: Layout, d: Vec3, placed: nat, retry: bool, draw: Vec3)
    requires ValidLayout(l)
    ensures var g := GenState(Grid(center, l, d), placed);
            var s := Generate(g, retry, draw);
            && (retry ==> s == Step(Err(GridRetryUnsupported(placed)), g))
            && (!retry && placed < Capacity(l) ==>
                  s == Step(Ok(CellPosition(center, l, d, CellOf(l, placed))), GenState(g.law, placed + 1)))
            && (!retry && placed >= Capacity(l) ==> s == Step(Err(GridExhausted), g))
  {
  }

  /** The results of `m` successive non-retry calls. */
  function Calls(g: GenState, m: nat, draw: Vec3): (r: seq<Result<Vec3>>)
    ensures |r| == m
    decreases m
  {
    if m == 0 then []
    else
      var s := Generate(g, false, draw);
      [s.value] + Calls(s.next, m - 1, draw)
  }

  lemma {:induction false} GridCallsFrom(center: Vec3, l: Layout, d: Vec3, p: nat, m: nat, draw: Vec3)
    requires ValidLayout(l) && p <= Capacity(l)
    ensures forall k :: 0 <= k < m ==>
              Calls(GenState(Grid(center, l, d), p), m, draw)[k]
                == if p + k < Capacity(l) then Ok(CellPosition(center, l, d, CellOf(l, p + k))) else Err(GridExhausted)
    decreases m
  {
    if m > 0 {
      var g := GenState(Grid(center, l, d), p);
      var s := Generate(g, false, draw);
      var p' := if p < Capacity(l) then p + 1 else p;
      assert s.next == GenState(Grid(center, l, d), p');
      GridCallsFrom(center, l, d, p', m - 1, draw);
      var cs := Calls(g, m, draw);
      assert cs == [s.value] + Calls(s.next, m - 1, draw);
      forall k | 0 <= k < m
        ensures cs[k] == if p + k < Capacity(l) then Ok(CellPosition(center, l, d, CellOf(l, p + k))) else Err(GridExhausted)
      {
        if k > 0 {
          assert cs[k] == Calls(s.next, m - 1, draw)[k - 1];
          if p >= Capacity(l) {
            assert p' + (k - 1) >= Capacity(l);
          } else {
            assert p' + (k - 1) == p + k;
          }
        }
      }
    }
  }

  /**
   * A fresh grid generator is exhaustive and deterministic: its first
   * `nx * ny * nz` non-retry calls return cells 0, 1, 2, ... in order, and
   * the next one fails with the grid exhausted.
   */
  lemma GridExhaustive(center: Vec3, l: Layout, d: Vec3, draw: Vec3)
    requires ValidLayout(l)
    ensures var cs := Calls(GenState(Grid(center, l, d), 0), Capacity(l) + 1, draw);
            && (forall k :: 0 <= k < Capacity(l) ==> cs[k] == Ok(CellPosition(center, l, d, CellOf(l, k))))
            && cs[Capacity(l)] == Err(GridExhausted)
  {
    GridCallsFrom(center, l, d, 0, Capacity(l) + 1, draw);
  }

  // ---------------------------------------------------------------------
  // The capacity as the original computes it, in 32-bit unsigned arithmetic

  const UINT32_MODULUS: nat := 0x1_0000_0000

  /** `layout[0] * layout[1] * layout[2]` on UInt32: each product wraps modulo 2^32. */
  function CapacityAsWritten(l: Layout): nat {
    ((l.nx * l.ny) % UINT32_MODULUS) * l.nz % UINT32_MODULUS
  }

  /**
   * A valid 65536 x 65536 x 1 layout has room for 2^32 entities, yet the
   * 32-bit product is 0, so the guard `placed < capacity` refuses even the
   * first placement.
   */
  lemma CapacityWrapsAsWritten()
    ensures var l := Layout(65536, 65536, 1);
            ValidLayout(l) && Capacity(l) == UINT32_MODULUS && CapacityAsWritten(l) == 0
            && !(0 < CapacityAsWritten(l)) && 0 < Capacity(l)
  {
  }

  /**
   * The generator object the distributor calls; one class stands for the
   * four generator classes, and only the grid law touches `placed`.
   */
  class PoseGenerator {
    const law: Law
    var placed: nat

    constructor (law: Law)
      ensures this.law == law && placed == 0
    {
      this.law := law;
      placed := 0;
    }

    function State(): GenState
      reads this
    {
      GenState(law, placed)
    }

    method Call(isRetry: bool, draw: Vec3) returns (r: Result<Vec3>)
      modifies this
      ensures Step(r, State()) == Generate(old(State()), isRetry, draw)
    {
      match law
      case Constant(v) =>
        r := Ok(v);
      case Uniform(min, max) =>
        r := Ok(UniformValue(min, max, draw));
      case Gaussian(_, _) =>
        r := Ok(draw);
      case Grid(center, l, d) =>
        if isRetry {
          r := Err(GridRetryUnsupported(placed));
        } else if placed < Capacity(l) {
          r := Ok(CellPosition(center, l, d, CellOf(l, placed)));
          placed := placed + 1;
        } else {
          r := Err(GridExhausted);
        }
    }
  }
}

=== FILE: registry.dfy ===
/**
 * The entity registry of the space as a value: the flat index of all
 * entities, the root index, the set of types ever registered, and the trace
 * of observable side effects. The space's own fields hold the same four
 * things; these functions are the specification its methods are proved
 * against.
 */
module Registry {
  import opened Common

  datatype World = World(entities: seq<EntityRec>, roots: seq<EntityRec>, types: set<string>, trace: seq<Event>)

  /** Removes the most recent occurrence of `x`; `s` is unchanged when `x` is absent. */
  function RemoveLast<T(==)>(s: seq<T>, x: T): seq<T>
    decreases |s|
  {
    if s == [] then []
    else if s[|s| - 1] == x then s[..|s| - 1]
    else RemoveLast(s[..|s| - 1], x) + [s[|s| - 1]]
  }

  /** Exactly one occurrence of `x` goes when there is one, nothing when there is none. */
  lemma {:induction false} RemoveLastCount<T>(s: seq<T>, x: T)
    ensures x !in s ==> RemoveLast(s, x) == s
    ensures x in s ==> |RemoveLast(s, x)| == |s| - 1
    ensures multiset(RemoveLast(s, x)) == multiset(s) - multiset{x}
    decreases |s|
  {
    if s != [] {
      var init, last := s[..|s| - 1], s[|s| - 1];
      assert s == init + [last];
      assert multiset(s) == multiset(init) + multiset{last};
      if last != x {
        RemoveLastCount(init, x);
        assert RemoveLast(s, x) == RemoveLast(init, x) + [last];
        assert x in s <==> x in init;
      }
    }
  }

  /** Registering a root entity: flat index, root index and type index all learn it. */
  function AddEntity(w: World, rec: EntityRec): World {
    World(w.entities + [rec], w.roots + [rec], w.types + {rec.typ}, w.trace + [Added(rec)])
  }

  /**
   * Unregistering a root entity. The type stays known: the per-type map of
   * the original keeps its key once created.
   */
  function RemoveEntity(w: World, rec: EntityRec): World {
    World(RemoveLast(w.entities, rec), RemoveLast(w.roots, rec), w.types, w.trace + [Removed(rec)])
  }

  /** Registering and at once unregistering a root entity, as a single step. */
  function Bounce(w: World, rec: EntityRec): World {
    World(w.entities, w.roots, w.types + {rec.typ}, w.trace + [Added(rec), Removed(rec)])
  }

  /** Removing an entity right after adding it restores both indices: the two steps are one bounce. */
  lemma AddThenRemove(w: World, rec: EntityRec)
    ensures RemoveEntity(AddEntity(w, rec), rec) == Bounce(w, rec)
  {
    RemoveLastAfterAppend(w.entities, rec);
    RemoveLastAfterAppend(w.roots, rec);
    assert w.trace + [Added(rec)] + [Removed(rec)] == w.trace + [Added(rec), Removed(rec)];
  }

  lemma RemoveLastAfterAppend<T>(s: seq<T>, x: T)
    ensures RemoveLast(s + [x], x) == s
  {
    var t := s + [x];
    assert t[|t| - 1] == x;
    assert t[..|t| - 1] == s;
  }

  /** The entities of `es`, in list order, whose identifier matches `pattern`. */
  function Matching(es: seq<EntityRec>, pattern: string, matches: (EntityId, string) -> bool): seq<EntityRec>
    decreases |es|
  {
    if es == [] then []
    else
      var last := es[|es| - 1];
      Matching(es[..|es| - 1], pattern, matches) + (if matches(last.id, pattern) then [last] else [])
  }

  /** Every matching entity is kept as often as it occurs, every other one is dropped. */
  lemma {:induction false} MatchingCounts(es: seq<EntityRec>, pattern: string, matches: (EntityId, string) -> bool, e: EntityRec)
    ensures multiset(Matching(es, pattern, matches))[e] == if matches(e.id, pattern) then multiset(es)[e] else 0
    decreases |es|
  {
    if es != [] {
      var init, last := es[..|es| - 1], es[|es| - 1];
      assert es == init + [last];
      MatchingCounts(init, pattern, matches, e);
    }
  }

  /** A pattern that matches every identifier returns every entity exactly once, in order. */
  lemma {:induction false} MatchingEverything(es: seq<EntityRec>, pattern: string, matches: (EntityId, string) -> bool)
    requires forall id :: matches(id, pattern)
    ensures Matching(es, pattern, matches) == es
    decreases |es|
  {
    if es != [] {
      MatchingEverything(es[..|es| - 1], pattern, matches);
      assert es == es[..|es| - 1] + [es[|es| - 1]];
    }
  }

  /** Erases the first occurrence of `x`, as `find` followed by `erase` does. */
  function RemoveFirst<T(==)>(s: seq<T>, x: T): seq<T>
    decreases |s|
  {
    if s == [] then []
    else if s[0] == x then s[1..]
    else [s[0]] + RemoveFirst(s[1..], x)
  }

  /** When `k` is the first index holding `x` (or `|s|` if none), RemoveFirst cuts exactly there. */
  lemma {:induction false} RemoveFirstAt<T>(s: seq<T>, x: T, k: nat)
    requires k <= |s|
    requires forall j :: 0 <= j < k ==> s[j] != x
    requires k < |s| ==> s[k] == x
    ensures RemoveFirst(s, x) == if k < |s| then s[..k] + s[k + 1..] else s
    decreases |s|
  {
    if s != [] && s[0] != x {
      RemoveFirstAt(s[1..], x, k - 1);
      if k < |s| {
        assert s[1..][..k - 1] + s[1..][k..] == s[1..k] + s[k + 1..];
        assert [s[0]] + s[1..k] == s[..k];
      }
    }
  }

  /** Exactly one occurrence of `x` goes when there is one, nothing when there is none. */
  lemma {:induction false} RemoveFirstCount<T>(s: seq<T>, x: T)
    ensures multiset(RemoveFirst(s, x)) == multiset(s) - multiset{x}
    ensures x !in s ==> RemoveFirst(s, x) == s
    ensures x in s ==> |RemoveFirst(s, x)| == |s| - 1
    decreases |s|
  {
    if s != [] {
      assert s == [s[0]] + s[1..];
      assert multiset(s) == multiset{s[0]} + multiset(s[1..]);
      if s[0] != x {
        RemoveFirstCount(s[1..], x);
        assert RemoveFirst(s, x) == [s[0]] + RemoveFirst(s[1..], x);
        assert x in s <==> x in s[1..];
      }
    }
  }

  /** The reset events of a flat entity list, in list order. */
  function ResetEvents(es: seq<EntityRec>): (r: seq<Event>)
    ensures |r| == |es|
    ensures forall k :: 0 <= k < |es| ==> r[k] == ResetEntity(es[k].id)
    decreases |es|
  {
    if es == [] then [] else ResetEvents(es[..|es| - 1]) + [ResetEntity(es[|es| - 1].id)]
  }

  /** Teardown: remove the last root until no root is left. */
  function Teardown(w: World): World
    decreases |w.roots|
  {
    if w.roots == [] then w
    else Teardown(RemoveEntity(w, w.roots[|w.roots| - 1]))
  }

  /** The removal events of `rs`, from its last element to its first. */
  function RemovedBackwards(rs: seq<EntityRec>): (r: seq<Event>)
    ensures |r| == |rs|
    ensures forall k :: 0 <= k < |rs| ==> r[k] == Removed(rs[|rs| - 1 - k])
    decreases |rs|
  {
    if rs == [] then [] else [Removed(rs[|rs| - 1])] + RemovedBackwards(rs[..|rs| - 1])
  }

  /**
   * Teardown leaves no root, keeps the type index, and removes the roots from
   * the last one to the first; when the flat index holds exactly the roots it
   * is left empty as well.
   */
  lemma {:induction false} TeardownRemovesRootsBackwards(w: World)
    ensures Teardown(w).roots == []
    ensures w.entities == w.roots ==> Teardown(w).entities == []
    ensures Teardown(w).types == w.types
    ensures Teardown(w).trace == w.trace + RemovedBackwards(w.roots)
    decreases |w.roots|
  {
    if w.roots != [] {
      var n := |w.roots|;
      var last := w.roots[n - 1];
      var w' := RemoveEntity(w, last);
      RemoveLastAfterAppend(w.roots[..n - 1], last);
      assert w.roots == w.roots[..n - 1] + [last];
      assert w'.roots == w.roots[..n - 1];
      TeardownRemovesRootsBackwards(w');
      assert w.trace + [Removed(last)] + RemovedBackwards(w'.roots) == w.trace + RemovedBackwards(w.roots);
    }
  }
}

=== FILE: space.dfy ===
/**
 * The space: the container of every entity of the simulation. It keeps the
 * flat entity index, the root index, the per-type index (as the set of
 * types known), the controllable entities, the simulation clock, and the
 * entities each physics engine houses; it builds the arena from its
 * configuration, steps, resets and tears down.
 */
module SimSpace {
  import opened Common
  import opened Registry
  import opened Generators
  import opened Dispatcher
  import opened Distributor

  /** The entities of `es`, in order, registered under type `typ`. */
  function OfType(es: seq<EntityRec>, typ: string): seq<EntityRec>
    decreases |es|
  {
    if es == [] then []
    else OfType(es[..|es| - 1], typ) + (if es[|es| - 1].typ == typ then [es[|es| - 1]] else [])
  }

  lemma {:induction false} OfTypeExact(es: seq<EntityRec>, typ: string)
    ensures forall e :: e in OfType(es, typ) <==> e in es && e.typ == typ
    decreases |es|
  {
    if es != [] {
      OfTypeExact(es[..|es| - 1], typ);
      assert es == es[..|es| - 1] + [es[|es| - 1]];
    }
  }

  /** The phases of one step, in the order `Update` runs them. */
  const StepPhases: seq<Event> :=
    [Ran(Act), Ran(Physics), Ran(Media), Ran(PreStep), Ran(SenseStep), Ran(PostStep), Ran(FlushLog), Ran(FlushLogErr)]

  /** The names of the engines at the given indices, in the same order. */
  function EngineNames(engineIds: seq<string>, idx: seq<nat>): (r: seq<string>)
    requires forall j :: 0 <= j < |idx| ==> idx[j] < |engineIds|
    ensures |r| == |idx| && forall j :: 0 <= j < |idx| ==> r[j] == engineIds[idx[j]]
  {
    seq(|idx|, j requires 0 <= j < |idx| => engineIds[idx[j]])
  }

  /** Each engine listed in `idx` gains `root` at the end of its entities; the others are untouched. */
  function Assigned(housed: seq<seq<EntityId>>, idx: seq<nat>, root: EntityId): (r: seq<seq<EntityId>>)
    ensures |r| == |housed|
    ensures forall k :: 0 <= k < |housed| ==> r[k] == if k in idx then housed[k] + [root] else housed[k]
  {
    seq(|housed|, k requires 0 <= k < |housed| => if k in idx then housed[k] + [root] else housed[k])
  }

  /** Handing `root` to one more engine, not listed before, extends the assignment by that engine. */
  lemma AssignedStep(housed: seq<seq<EntityId>>, idx: seq<nat>, j: nat, root: EntityId)
    requires j < |idx| && idx[j] < |housed| && idx[j] !in idx[..j]
    ensures var before := Assigned(housed, idx[..j], root);
            Assigned(housed, idx[..j + 1], root) == before[idx[j] := before[idx[j]] + [root]]
  {
    var before := Assigned(housed, idx[..j], root);
    var after := Assigned(housed, idx[..j + 1], root);
    forall k | 0 <= k < |housed| ensures after[k] == before[idx[j] := before[idx[j]] + [root]][k] {
      assert k in idx[..j + 1] <==> k in idx[..j] || k == idx[j] by {
        assert idx[..j + 1] == idx[..j] + [idx[j]];
      }
    }
  }

  // ---------------------------------------------------------------------
  // Building the arena

  /** A child of the arena node: an entity placed by hand, or a "distribute" block. */
  datatype ArenaItem = Manual(rec: EntityRec) | Distributed(batch: Batch)

  /** The hand-placed entities, in configuration order. */
  function ManualRecs(items: seq<ArenaItem>): seq<EntityRec>
    decreases |items|
  {
    if items == [] then []
    else
      var last := items[|items| - 1];
      ManualRecs(items[..|items| - 1]) + (if last.Manual? then [last.rec] else [])
  }

  /** Registering `recs` one after the other. */
  function AddAll(w: World, recs: seq<EntityRec>): World
    decreases |recs|
  {
    if recs == [] then w else AddEntity(AddAll(w, recs[..|recs| - 1]), recs[|recs| - 1])
  }

  lemma {:induction false} AddAllAppends(w: World, recs: seq<EntityRec>)
    ensures AddAll(w, recs).entities == w.entities + recs
    ensures AddAll(w, recs).roots == w.roots + recs
    ensures w.trace <= AddAll(w, recs).trace
    decreases |recs|
  {
    if recs != [] {
      var init := recs[..|recs| - 1];
      AddAllAppends(w, init);
      assert recs == init + [recs[|recs| - 1]];
    }
  }

  /** The "distribute" blocks from index `k` on, each with its own oracle, stopping at the first failure. */
  function DistributeFrom(items: seq<ArenaItem>, k: nat, oracles: nat -> Oracle, w: World): (Outcome, World)
    decreases |items| - k
  {
    if k >= |items| then (Pass, w)
    else
      match items[k]
      case Manual(_) => DistributeFrom(items, k + 1, oracles, w)
      case Distributed(b) =>
        var r := Distribution(b, oracles(k), w);
        if r.outcome.Fail? then (r.outcome, r.world) else DistributeFrom(items, k + 1, oracles, r.world)
  }

  /** Arena construction: every hand-placed entity first, then the blocks. */
  function Arena(items: seq<ArenaItem>, oracles: nat -> Oracle, w: World): (Outcome, World) {
    DistributeFrom(items, 0, oracles, AddAll(w, ManualRecs(items)))
  }

  lemma {:induction false} DistributeFromExtends(items: seq<ArenaItem>, k: nat, oracles: nat -> Oracle, w: World)
    ensures w.entities <= DistributeFrom(items, k, oracles, w).1.entities
    ensures w.trace <= DistributeFrom(items, k, oracles, w).1.trace
    decreases |items| - k
  {
    if k < |items| {
      match items[k]
      case Manual(_) =>
        DistributeFromExtends(items, k + 1, oracles, w);
      case Distributed(b) =>
        var r := Distribution(b, oracles(k), w);
        DistributionPlacesInOrder(b, oracles(k), w);
        if r.outcome.Pass? {
          DistributeFromExtends(items, k + 1, oracles, r.world);
        }
    }
  }

  /**
   * Every hand-placed entity is registered before any distributed one: the
   * entity index starts with the previous entities followed by the
   * hand-placed ones in configuration order, whatever the blocks do.
   */
  lemma ManualEntitiesComeFirst(items: seq<ArenaItem>, oracles: nat -> Oracle, w: World)
    ensures w.entities + ManualRecs(items) <= Arena(items, oracles, w).1.entities
    ensures w.trace <= Arena(items, oracles, w).1.trace
  {
    var w1 := AddAll(w, ManualRecs(items));
    AddAllAppends(w, ManualRecs(items));
    DistributeFromExtends(items, 0, oracles, w1);
  }

  /** Follows parent links from `entity` up to the entity that has no parent. */
  method FindRoot(entity: EntityId, parent: map<EntityId, EntityId>, ghost rank: map<EntityId, nat>)
    returns (root: EntityId)
    requires Ranked(parent, rank)
    ensures root == RootOf(parent, rank, entity)
  {
    root := entity;
    while root in parent
      invariant RootOf(parent, rank, root) == RootOf(parent, rank, entity)
      decreases if root in rank then rank[root] else 0
    {
      root := parent[root];
    }
  }

  /** Scans the `n` engines in order and collects those whose region contains `pos`. */
  method FindHousing(n: nat, contains: (nat, Vec3) -> bool, pos: Vec3) returns (housing: seq<nat>)
    ensures housing == Housing(n, contains, pos)
  {
    housing := [];
    var k := 0;
    while k < n
      invariant 0 <= k <= n
      invariant housing == Housing(k, contains, pos)
    {
      if contains(k, pos) {
        housing := housing + [k];
      }
      k := k + 1;
    }
  }

  class Space {
    const engineIds: seq<string>
    var clock: nat
    var entities: seq<EntityRec>
    var roots: seq<EntityRec>
    var types: set<string>
    var controllables: seq<EntityId>
    var engineEntities: seq<seq<EntityId>>
    var trace: seq<Event>

    /** One entity list per engine, and every registered entity is a root (the flat index is the root index). */
    ghost predicate Valid()
      reads this
    {
      |engineEntities| == |engineIds| && entities == roots
    }

    function State(): World
      reads this
    {
      World(entities, roots, types, trace)
    }

    constructor (engineIds: seq<string>)
      ensures this.engineIds == engineIds && Valid()
      ensures clock == 0 && State() == World([], [], {}, []) && controllables == []
      ensures forall k :: 0 <= k < |engineEntities| ==> engineEntities[k] == []
    {
      this.engineIds := engineIds;
      clock := 0;
      entities, roots, types, controllables, trace := [], [], {}, [], [];
      engineEntities := seq(|engineIds|, _ => []);
    }

    /** Registering a root entity in the flat, root and type indices. */
    method AddEntity(rec: EntityRec)
      requires Valid()
      modifies this
      ensures Valid() && State() == Registry.AddEntity(old(State()), rec)
      ensures clock == old(clock) && controllables == old(controllables) && engineEntities == old(engineEntities)
    {
      entities := entities + [rec];
      roots := roots + [rec];
      types := types + {rec.typ};
      trace := trace + [Added(rec)];
    }

    /** Unregistering a root entity from the flat and root indices. */
    method RemoveEntity(rec: EntityRec)
      requires Valid()
      modifies this
      ensures Valid() && State() == Registry.RemoveEntity(old(State()), rec)
      ensures clock == old(clock) && controllables == old(controllables) && engineEntities == old(engineEntities)
    {
      entities := RemoveLast(entities, rec);
      roots := RemoveLast(roots, rec);
      trace := trace + [Removed(rec)];
    }

    /**
     * One simulation step: the clock advances by one and the phases run in
     * their fixed order; nothing else changes.
     */
    method Update()
      requires Valid()
      modifies this
      ensures Valid()
      ensures clock == old(clock) + 1
      ensures trace == old(trace) + StepPhases
      ensures entities == old(entities) && roots == old(roots) && types == old(types)
      ensures controllables == old(controllables) && engineEntities == old(engineEntities)
    {
      clock := clock + 1;
      trace := trace + [Ran(Act)];
      trace := trace + [Ran(Physics)];
      trace := trace + [Ran(Media)];
      trace := trace + [Ran(PreStep)];
      trace := trace + [Ran(SenseStep)];
      trace := trace + [Ran(PostStep)];
      trace := trace + [Ran(FlushLog)];
      trace := trace + [Ran(FlushLogErr)];
    }

    /** The clock goes back to 0 and every entity of the flat index is reset once, in index order. */
    method Reset()
      requires Valid()
      modifies this
      ensures Valid()
      ensures clock == 0
      ensures trace == old(trace) + ResetEvents(entities)
      ensures entities == old(entities) && roots == old(roots) && types == old(types)
      ensures controllables == old(controllables) && engineEntities == old(engineEntities)
    {
      clock := 0;
      var i := 0;
      while i < |entities|
        invariant 0 <= i <= |entities|
        invariant trace == old(trace) + ResetEvents(entities[..i])
        invariant entities == old(entities) && roots == old(roots) && types == old(types)
        invariant controllables == old(controllables) && engineEntities == old(engineEntities) && clock == 0
      {
        assert entities[..i + 1][..i] == entities[..i];
        trace := trace + [ResetEntity(entities[i].id)];
        i := i + 1;
      }
      assert entities[..i] == entities;
    }

    /** Removes the last root entity until none is left. */
    method Destroy()
      requires Valid()
      modifies this
      ensures Valid() && entities == [] && roots == []
      ensures State() == Teardown(old(State()))
      ensures clock == old(clock) && controllables == old(controllables) && engineEntities == old(engineEntities)
    {
      while roots != []
        invariant Valid() && Teardown(State()) == Teardown(old(State()))
        invariant clock == old(clock) && controllables == old(controllables) && engineEntities == old(engineEntities)
        decreases |roots|
      {
        RemoveLastAfterAppend(roots[..|roots| - 1], roots[|roots| - 1]);
        assert roots == roots[..|roots| - 1] + [roots[|roots| - 1]];
        RemoveEntity(roots[|roots| - 1]);
      }
    }

    /** Appends to `buffer` every entity of the flat index whose identifier matches `pattern`, in index order. */
    method GetEntitiesMatching(buffer: seq<EntityRec>, pattern: string, matches: (EntityId, string) -> bool)
      returns (out: seq<EntityRec>)
      ensures out == buffer + Matching(entities, pattern, matches)
    {
      out := buffer;
      var i := 0;
      while i < |entities|
        invariant 0 <= i <= |entities|
        invariant out == buffer + Matching(entities[..i], pattern, matches)
      {
        assert entities[..i + 1][..i] == entities[..i];
        if matches(entities[i].id, pattern) {
          out := out + [entities[i]];
        }
        i := i + 1;
      }
      assert entities[..i] == entities;
    }

    /** The entities of a type the space has registered; a type it never registered is an error. */
    function GetEntitiesByType(typ: string): (r: Result<seq<EntityRec>>)
      reads this
      ensures r.Err? <==> typ !in types
      ensures r.Err? ==> r.error == UnknownType(typ)
      ensures r.Ok? ==> forall e :: e in r.value <==> e in entities && e.typ == typ
    {
      OfTypeExact(entities, typ);
      if typ in types then Ok(OfType(entities, typ)) else Err(UnknownType(typ))
    }

    method AddControllableEntity(c: EntityId)
      modifies this
      ensures controllables == old(controllables) + [c]
      ensures State() == old(State()) && clock == old(clock) && engineEntities == old(engineEntities)
    {
      controllables := controllables + [c];
    }

    /** Erases the first occurrence of `c`, if any. */
    method RemoveControllableEntity(c: EntityId)
      modifies this
      ensures controllables == RemoveFirst(old(controllables), c)
      ensures State() == old(State()) && clock == old(clock) && engineEntities == old(engineEntities)
    {
      var k := 0;
      while k < |controllables| && controllables[k] != c
        invariant 0 <= k <= |controllables|
        invariant forall j :: 0 <= j < k ==> controllables[j] != c
      {
        k := k + 1;
      }
      RemoveFirstAt(controllables, c, k);
      if k < |controllables| {
        controllables := controllables[..k] + controllables[k + 1..];
      }
    }

    /** Hands `root` to every engine listed in `housing`, each once. */
    method AddToEngines(housing: seq<nat>, root: EntityId)
      requires Valid() && Increasing(housing)
      requires forall j :: 0 <= j < |housing| ==> housing[j] < |engineIds|
      modifies this
      ensures Valid() && engineEntities == Assigned(old(engineEntities), housing, root)
      ensures State() == old(State()) && clock == old(clock) && controllables == old(controllables)
    {
      var j := 0;
      while j < |housing|
        invariant 0 <= j <= |housing| && Valid()
        invariant engineEntities == Assigned(old(engineEntities), housing[..j], root)
        invariant State() == old(State()) && clock == old(clock) && controllables == old(controllables)
      {
        assert housing[j] !in housing[..j] by {
          forall a | 0 <= a < j ensures housing[..j][a] != housing[j] {
            assert housing[a] < housing[j];
          }
        }
        AssignedStep(old(engineEntities), housing, j, root);
        engineEntities := engineEntities[housing[j] := engineEntities[housing[j]] + [root]];
        j := j + 1;
      }
      assert housing[..j] == housing;
    }

    /**
     * Hands the root ancestor of an embodied entity to the physics engines
     * whose region contains the entity's position: to all of them if the
     * entity is static, to the only one if it is movable. No containing
     * engine, or several for a movable entity, is an error.
     */
    method AddEntityToPhysicsEngine(entity: EntityId, position: Vec3, movable: bool,
                                    parent: map<EntityId, EntityId>, ghost rank: map<EntityId, nat>,
                                    contains: (nat, Vec3) -> bool)
      returns (r: Outcome)
      requires Valid() && Ranked(parent, rank)
      modifies this
      ensures Valid()
      ensures var v := Dispatch(Housing(|engineIds|, contains, position), movable);
              var root := RootOf(parent, rank, entity);
              && (v.NoHousing? ==> r == Fail(NoHousingEngine(root)) && engineEntities == old(engineEntities))
              && (v.Ambiguous? ==> r == Fail(AmbiguousEngine(entity, EngineNames(engineIds, v.engines)))
                                   && engineEntities == old(engineEntities))
              && (v.Assign? ==> r == Pass && engineEntities == Assigned(old(engineEntities), v.engines, root))
      ensures State() == old(State()) && clock == old(clock) && controllables == old(controllables)
    {
      var root := FindRoot(entity, parent, rank);
      var housing := FindHousing(|engineIds|, contains, position);
      HousingExact(|engineIds|, contains, position);
      if housing == [] {
        r := Fail(NoHousingEngine(root));
      } else if !movable || |housing| == 1 {
        AddToEngines(housing, root);
        r := Pass;
      } else {
        r := Fail(AmbiguousEngine(entity, EngineNames(engineIds, housing)));
      }
    }

    /** One turn of the placement loop, as `Attempt` specifies it. */
    method TryPlace(t: Template, id: EntityId, i: nat, trial: nat, retry: bool,
                    pg: PoseGenerator, og: PoseGenerator, o: Oracle)
      returns (kind: AttemptKind)
      requires pg != og && Valid()
      modifies this, pg, og
      ensures Valid()
      ensures AttemptResult(kind, pg.State(), og.State(), State())
           == Attempt(t, id, i, trial, retry, old(pg.State()), old(og.State()), o, old(State()))
      ensures clock == old(clock) && controllables == old(controllables) && engineEntities == old(engineEntities)
    {
      var p := pg.Call(retry, o.positionDraw(i, trial));
      if p.Err? {
        return Failed(p.error);
      }
      var q := og.Call(retry, o.orientationDraw(i, trial));
      if q.Err? {
        return Failed(q.error);
      }
      trace := trace + [Posed(id, retry, p.value, q.value)];
      var rec := EntityRec(id, t.typ);
      match Classify(t.shape)
      case Neither =>
        kind := Failed(NotPlaceable(t.typ));
      case Positional(_) =>
        AddEntity(rec);
        kind := Settled;
      case Embodied(_) =>
        ghost var posed := State();
        AddEntity(rec);
        if o.collides(i, trial) {
          RemoveEntity(rec);
          AddThenRemove(posed, rec);
          kind := Collided;
        } else {
          kind := Settled;
        }
    }

    /** Places entity `i` of a batch: attempts until it is placed, an attempt fails, or the trials run out. */
    method PlaceEntity(b: Batch, t: Template, i: nat, pg: PoseGenerator, og: PoseGenerator, o: Oracle)
      returns (r: Outcome, lastTrial: nat)
      requires pg != og && Valid()
      modifies this, pg, og
      ensures Valid()
      ensures Placement(r, pg.State(), og.State(), State(), lastTrial)
           == Place(b, t, i, 0, false, old(pg.State()), old(og.State()), o, old(State()))
      ensures clock == old(clock) && controllables == old(controllables) && engineEntities == old(engineEntities)
    {
      var id := IdFor(b.baseNum, t, i);
      var trials := 0;
      var retry := false;
      while true
        invariant Valid() && trials <= b.maxTrials && retry == (trials > 0)
        invariant Place(b, t, i, trials, retry, pg.State(), og.State(), o, State())
               == Place(b, t, i, 0, false, old(pg.State()), old(og.State()), o, old(State()))
        invariant clock == old(clock) && controllables == old(controllables) && engineEntities == old(engineEntities)
        decreases b.maxTrials - trials
      {
        ghost var g, h, w := pg.State(), og.State(), State();
        var kind := TryPlace(t, id, i, trials, retry, pg, og, o);
        ghost var a := AttemptResult(kind, pg.State(), og.State(), State());
        assert Place(b, t, i, trials, retry, g, h, o, w) == Settle(b, t, i, trials, a, o);
        match kind
        case Failed(e) =>
          return Fail(e), trials;
        case Settled =>
          return Pass, trials;
        case Collided =>
          if trials + 1 > b.maxTrials {
            return Fail(PlacementExhausted(t.typ, t.baseId, i)), trials;
          }
          trials := trials + 1;
          retry := true;
      }
    }

    /** A "distribute" block, as `Distribution` specifies it. */
    method Distribute(b: Batch, o: Oracle) returns (r: Outcome, placed: nat)
      requires Valid()
      modifies this
      ensures Valid()
      ensures RunResult(r, placed, State()) == Distribution(b, o, old(State()))
      ensures clock == old(clock) && controllables == old(controllables) && engineEntities == old(engineEntities)
    {
      var pl := CreateGenerator(b.position);
      if pl.Err? {
        return Fail(pl.error), 0;
      }
      var ol := CreateGenerator(b.orientation);
      if ol.Err? {
        return Fail(ol.error), 0;
      }
      if b.template.None? {
        return Fail(NoEntityToDistribute), 0;
      }
      var t := b.template.value;
      var pg := new PoseGenerator(pl.value);
      var og := new PoseGenerator(ol.value);
      var i := 0;
      while i < b.quantity
        invariant Valid()
        invariant Run(b, t, i, pg.State(), og.State(), o, State())
               == Run(b, t, 0, GenState(pl.value, 0), GenState(ol.value, 0), o, old(State()))
        invariant clock == old(clock) && controllables == old(controllables) && engineEntities == old(engineEntities)
        decreases b.quantity - i
      {
        var outcome, _ := PlaceEntity(b, t, i, pg, og, o);
        if outcome.Fail? {
          return outcome, i;
        }
        i := i + 1;
      }
      return Pass, i;
    }

    /** Builds the arena: every hand-placed entity first, in order, then every block in order. */
    method Init(items: seq<ArenaItem>, oracles: nat -> Oracle) returns (r: Outcome)
      requires Valid()
      modifies this
      ensures Valid()
      ensures (r, State()) == Arena(items, oracles, old(State()))
      ensures clock == old(clock) && controllables == old(controllables) && engineEntities == old(engineEntities)
    {
      AddManualEntities(items);
      r := DistributeBlocks(items, oracles);
    }

    /** The first pass over the arena's children: registers the hand-placed entities, in order. */
    method AddManualEntities(items: seq<ArenaItem>)
      requires Valid()
      modifies this
      ensures Valid() && State() == AddAll(old(State()), ManualRecs(items))
      ensures clock == old(clock) && controllables == old(controllables) && engineEntities == old(engineEntities)
    {
      var k := 0;
      while k < |items|
        invariant 0 <= k <= |items| && Valid()
        invariant State() == AddAll(old(State()), ManualRecs(items[..k]))
        invariant clock == old(clock) && controllables == old(controllables) && engineEntities == old(engineEntities)
      {
        assert items[..k + 1][..k] == items[..k];
        var done := ManualRecs(items[..k]);
        if items[k].Manual? {
          AddEntity(items[k].rec);
          assert ManualRecs(items[..k + 1]) == done + [items[k].rec];
          assert (done + [items[k].rec])[..|done|] == done;
        } else {
          assert ManualRecs(items[..k + 1]) == done;
        }
        k := k + 1;
      }
      assert items[..k] == items;
    }

    /** The second pass over the arena's children: runs the distribute blocks, in order, until one fails. */
    method DistributeBlocks(items: seq<ArenaItem>, oracles: nat -> Oracle) returns (r: Outcome)
      requires Valid()
      modifies this
      ensures Valid() && (r, State()) == DistributeFrom(items, 0, oracles, old(State()))
      ensures clock == old(clock) && controllables == old(controllables) && engineEntities == old(engineEntities)
    {
      var k := 0;
      while k < |items|
        invariant 0 <= k <= |items| && Valid()
        invariant DistributeFrom(items, k, oracles, State()) == DistributeFrom(items, 0, oracles, old(State()))
        invariant clock == old(clock) && controllables == old(controllables) && engineEntities == old(engineEntities)
      {
        if items[k].Distributed? {
          var outcome, _ := Distribute(items[k].batch, oracles(k));
          if outcome.Fail? {
            return outcome;
          }
        }
        k := k + 1;
      }
      r := Pass;
    }
  }
}

=== FILE: tags.dfy ===
/**
 * The tag-equipped entity: a container of tag instances, each tying a tag to
 * an anchor of the parent's body through a fixed position and orientation
 * offset. The tags belong to the container alone and are kept by value in
 * its instance list; the anchors belong to the body and may be shared by
 * several instances, so they live in the body's anchor table and an
 * instance names its anchor by id.
 */
module Tags {
  import opened Common

  /** An orientation (CQuaternion); its algebra is passed in as functions. */
  datatype Quat = Quat(w: real, x: real, y: real, z: real)

  /** A reference frame on the body: whether it is enabled, and its live pose. */
  datatype Anchor = Anchor(enabled: bool, position: Vec3, orientation: Quat)

  /**
   * What the model tracks of one tag: its payload, its own enabled flag, its
   * pose, the medium it is registered with, and how often it was reset.
   */
  datatype Tag = Tag(id: EntityId, payload: string, enabled: bool, position: Vec3, orientation: Quat,
                     medium: Option<string>, resets: nat)

  /** One entry of the instance list (SInstance). */
  datatype Instance = Instance(tag: Tag, anchor: string, positionOffset: Vec3, orientationOffset: Quat)

  /**
   * One "tag" child of the configuration, as the tag's own initialisation and
   * the attribute parser deliver it: the initialised tag, its offsets and the
   * id of the anchor it is attached to.
   */
  datatype TagNode = TagNode(tag: Tag, positionOffset: Vec3, orientationOffset: Quat, anchor: string)

  /** Every instance is attached to an anchor the body has. */
  predicate AnchorsKnown(insts: seq<Instance>, anchors: map<string, Anchor>) {
    forall k :: 0 <= k < |insts| ==> insts[k].anchor in anchors
  }

  predicate Referenced(insts: seq<Instance>, a: string) {
    exists k :: 0 <= k < |insts| && insts[k].anchor == a
  }

  /* ---------- Enable / Disable ---------- */

  /** The anchor table after visiting the instances in order and setting each one's anchor flag to `v`. */
  function Switched(anchors: map<string, Anchor>, insts: seq<Instance>, v: bool): (m: map<string, Anchor>)
    requires AnchorsKnown(insts, anchors)
    ensures m.Keys == anchors.Keys
    decreases |insts|
  {
    if insts == [] then anchors
    else
      var m' := Switched(anchors, insts[..|insts| - 1], v);
      var a := insts[|insts| - 1].anchor;
      m'[a := m'[a].(enabled := v)]
  }

  /**
   * Exactly the anchors some instance is attached to get the flag `v`; their
   * poses, and every other anchor, stay as they were.
   */
  lemma {:induction false} SwitchedExact(anchors: map<string, Anchor>, insts: seq<Instance>, v: bool)
    requires AnchorsKnown(insts, anchors)
    ensures forall a :: a in anchors ==>
              Switched(anchors, insts, v)[a] == if Referenced(insts, a) then anchors[a].(enabled := v) else anchors[a]
    decreases |insts|
  {
    if insts != [] {
      var init, last := insts[..|insts| - 1], insts[|insts| - 1];
      SwitchedExact(anchors, init, v);
      forall a | a in anchors
        ensures Referenced(insts, a) <==> Referenced(init, a) || last.anchor == a
      {
        if Referenced(insts, a) {
          var k :| 0 <= k < |insts| && insts[k].anchor == a;
          if k < |init| {
            assert init[k] == insts[k];
          }
        }
        if Referenced(init, a) {
          var k :| 0 <= k < |init| && init[k].anchor == a;
          assert insts[k] == init[k];
        }
      }
    }
  }

  /** Only the last of several Enable/Disable calls matters. */
  lemma LastSwitchWins(anchors: map<string, Anchor>, insts: seq<Instance>, u: bool, v: bool)
    requires AnchorsKnown(insts, anchors)
    ensures Switched(Switched(anchors, insts, u), insts, v) == Switched(anchors, insts, v)
  {
    var once := Switched(anchors, insts, u);
    SwitchedExact(anchors, insts, u);
    SwitchedExact(once, insts, v);
    SwitchedExact(anchors, insts, v);
  }

  /* ---------- Payloads ---------- */

  /** Tag `i` with its payload replaced by `p`. */
  function WithPayload(insts: seq<Instance>, i: nat, p: string): (r: seq<Instance>)
    requires i < |insts|
    ensures |r| == |insts|
    ensures r[i].tag.payload == p
    ensures r[i].(tag := r[i].tag.(payload := insts[i].tag.payload)) == insts[i]
    ensures forall j :: 0 <= j < |insts| && j != i ==> r[j] == insts[j]
  {
    insts[i := insts[i].(tag := insts[i].tag.(payload := p))]
  }

  /** Every tag with the payload `p`. */
  function PayloadAll(insts: seq<Instance>, p: string): (r: seq<Instance>) {
    seq(|insts|, k requires 0 <= k < |insts| => insts[k].(tag := insts[k].tag.(payload := p)))
  }

  /** Tag `k` with the payload `vec[k]`, for every `k`. */
  function Payloads(insts: seq<Instance>, vec: seq<string>): (r: seq<Instance>)
    requires |vec| == |insts|
  {
    seq(|insts|, k requires 0 <= k < |insts| => insts[k].(tag := insts[k].tag.(payload := vec[k])))
  }

  /** The vector form of SetTagPayloads: a size check, then one payload per tag. */
  function PayloadsResult(insts: seq<Instance>, vec: seq<string>): (Outcome, seq<Instance>) {
    if |vec| == |insts| then (Pass, Payloads(insts, vec))
    else (Fail(PayloadCountMismatch(|insts|, |vec|)), insts)
  }

  /**
   * The vector form fails exactly when the sizes differ, and then changes
   * nothing; otherwise tag `k` carries `vec[k]` and nothing but the payloads
   * changes.
   */
  lemma PayloadsChecked(insts: seq<Instance>, vec: seq<string>)
    ensures var (r, after) := PayloadsResult(insts, vec);
            && (r.Fail? <==> |vec| != |insts|)
            && (r.Fail? ==> r.error == PayloadCountMismatch(|insts|, |vec|) && after == insts)
            && (r.Pass? ==> |after| == |insts|
                            && forall k :: 0 <= k < |insts| ==>
                                 after[k].tag.payload == vec[k]
                                 && after[k].(tag := after[k].tag.(payload := insts[k].tag.payload)) == insts[k])
  {
  }

  /** Setting the payloads of tags `0 .. n-1` one at a time, by index. */
  function SetEach(insts: seq<Instance>, vec: seq<string>, n: nat): (r: seq<Instance>)
    requires |vec| == |insts| && n <= |insts|
    ensures |r| == |insts|
    decreases n
  {
    if n == 0 then insts else WithPayload(SetEach(insts, vec, n - 1), n - 1, vec[n - 1])
  }

  /** The vector form is the same as setting every payload by index, in order. */
  lemma {:induction false} PayloadsAsIndexed(insts: seq<Instance>, vec: seq<string>)
    requires |vec| == |insts|
    ensures Payloads(insts, vec) == SetEach(insts, vec, |insts|)
  {
    SetEachPrefix(insts, vec, |insts|);
  }

  lemma {:induction false} SetEachPrefix(insts: seq<Instance>, vec: seq<string>, n: nat)
    requires |vec| == |insts| && n <= |insts|
    ensures |SetEach(insts, vec, n)| == |insts|
    ensures forall k :: 0 <= k < n ==> SetEach(insts, vec, n)[k] == Payloads(insts, vec)[k]
    ensures forall k :: n <= k < |insts| ==> SetEach(insts, vec, n)[k] == insts[k]
    decreases n
  {
    if n > 0 {
      SetEachPrefix(insts, vec, n - 1);
    }
  }

  /** The single-string form is the vector form with the same string for every tag. */
  lemma PayloadsOfOneString(insts: seq<Instance>, p: string)
    ensures Payloads(insts, seq(|insts|, _ => p)) == PayloadAll(insts, p)
  {
  }

  /* ---------- Reset ---------- */

  /** Every tag reset once. */
  function ResetAll(insts: seq<Instance>): seq<Instance> {
    seq(|insts|, k requires 0 <= k < |insts| => insts[k].(tag := insts[k].tag.(resets := insts[k].tag.resets + 1)))
  }

  /** Reset reaches every tag exactly once and touches nothing but the tags' reset. */
  lemma ResetReachesEveryTag(insts: seq<Instance>)
    ensures |ResetAll(insts)| == |insts|
    ensures forall k :: 0 <= k < |insts| ==>
              ResetAll(insts)[k].tag.resets == insts[k].tag.resets + 1
              && ResetAll(insts)[k].(tag := ResetAll(insts)[k].tag.(resets := insts[k].tag.resets)) == insts[k]
  {
  }

  /* ---------- UpdateComponents ---------- */

  /**
   * The global pose of an instance's tag: the position offset rotated by the
   * anchor's orientation and moved to the anchor's position, and the
   * anchor's orientation composed with the orientation offset.
   */
  function Moved(inst: Instance, anchor: Anchor, rotate: (Vec3, Quat) -> Vec3, compose: (Quat, Quat) -> Quat): Instance {
    inst.(tag := inst.tag.(position := Plus(rotate(inst.positionOffset, anchor.orientation), anchor.position),
                          orientation := compose(anchor.orientation, inst.orientationOffset)))
  }

  /** Every enabled tag moved to its anchor's frame; disabled tags left where they are. */
  function Updated(insts: seq<Instance>, anchors: map<string, Anchor>,
                   rotate: (Vec3, Quat) -> Vec3, compose: (Quat, Quat) -> Quat): seq<Instance>
    requires AnchorsKnown(insts, anchors)
  {
    seq(|insts|, k requires 0 <= k < |insts| =>
      if insts[k].tag.enabled then Moved(insts[k], anchors[insts[k].anchor], rotate, compose) else insts[k])
  }

  /**
   * Only enabled tags move. A moved tag sits at the anchor's position plus
   * its offset rotated by the anchor's orientation, facing the anchor's
   * orientation times its orientation offset; nothing else of it changes.
   */
  lemma UpdateMovesOnlyEnabledTags(insts: seq<Instance>, anchors: map<string, Anchor>,
                                   rotate: (Vec3, Quat) -> Vec3, compose: (Quat, Quat) -> Quat)
    requires AnchorsKnown(insts, anchors)
    ensures var r := Updated(insts, anchors, rotate, compose);
            && |r| == |insts|
            && forall k :: 0 <= k < |insts| ==>
                 var i, t, a := insts[k], r[k].tag, anchors[insts[k].anchor];
                 && r[k].(tag := t.(position := i.tag.position, orientation := i.tag.orientation)) == i
                 && (!i.tag.enabled ==> r[k] == i)
                 && (i.tag.enabled ==> t.position == Plus(rotate(i.positionOffset, a.orientation), a.position)
                                       && t.orientation == compose(a.orientation, i.orientationOffset))
  {
  }

  /** A tag's new pose depends on its anchor and offsets only, so updating twice is updating once. */
  lemma UpdateIdempotent(insts: seq<Instance>, anchors: map<string, Anchor>,
                         rotate: (Vec3, Quat) -> Vec3, compose: (Quat, Quat) -> Quat)
    requires AnchorsKnown(insts, anchors)
    ensures AnchorsKnown(Updated(insts, anchors, rotate, compose), anchors)
    ensures Updated(Updated(insts, anchors, rotate, compose), anchors, rotate, compose)
            == Updated(insts, anchors, rotate, compose)
  {
  }

  /* ---------- Medium membership ---------- */

  /** Every tag registered with `medium` (or with none). */
  function Joined(insts: seq<Instance>, medium: Option<string>): seq<Instance> {
    seq(|insts|, k requires 0 <= k < |insts| => insts[k].(tag := insts[k].tag.(medium := medium)))
  }

  /**
   * Joining a medium and leaving it again leaves no tag in any medium, and
   * neither step changes anything but the tags' medium.
   */
  lemma MediumRoundTrip(insts: seq<Instance>, m: string)
    ensures Joined(Joined(insts, Some(m)), None) == Joined(insts, None)
    ensures forall k :: 0 <= k < |insts| ==>
              Joined(insts, Some(m))[k].tag.medium == Some(m)
              && Joined(insts, Some(m))[k].(tag := Joined(insts, Some(m))[k].tag.(medium := insts[k].tag.medium)) == insts[k]
  {
  }

  /* ---------- Init ---------- */

  function InstanceOf(node: TagNode): Instance {
    Instance(node.tag, node.anchor, node.positionOffset, node.orientationOffset)
  }

  /**
   * The instances Init creates from the "tag" children, in document order:
   * the first child whose anchor the body lacks stops the loop with an
   * error, keeping the instances created before it.
   */
  function Instantiate(nodes: seq<TagNode>, anchors: map<string, Anchor>): (Outcome, seq<Instance>)
    decreases |nodes|
  {
    if nodes == [] then (Pass, [])
    else if nodes[0].anchor !in anchors then (Fail(UnknownAnchor(nodes[0].anchor)), [])
    else
      var rest := Instantiate(nodes[1..], anchors);
      (rest.0, [InstanceOf(nodes[0])] + rest.1)
  }

  /**
   * Init succeeds iff every child names a known anchor, and then creates one
   * instance per child, in order. Otherwise it fails on the first child with
   * an unknown anchor, having created the instances of the children before it.
   * Every created instance is attached to a known anchor.
   */
  lemma {:induction false} InstantiateInOrder(nodes: seq<TagNode>, anchors: map<string, Anchor>)
    ensures var (r, created) := Instantiate(nodes, anchors);
            && AnchorsKnown(created, anchors)
            && (r.Pass? <==> forall k :: 0 <= k < |nodes| ==> nodes[k].anchor in anchors)
            && (r.Pass? ==> |created| == |nodes| && forall k :: 0 <= k < |nodes| ==> created[k] == InstanceOf(nodes[k]))
            && (r.Fail? ==> exists j :: 0 <= j < |nodes| && nodes[j].anchor !in anchors
                             && r.error == UnknownAnchor(nodes[j].anchor)
                             && |created| == j
                             && forall k :: 0 <= k < j ==> nodes[k].anchor in anchors && created[k] == InstanceOf(nodes[k]))
    decreases |nodes|
  {
    if nodes != [] && nodes[0].anchor in anchors {
      var tail := nodes[1..];
      InstantiateInOrder(tail, anchors);
      var (r, created) := Instantiate(nodes, anchors);
      var (r', created') := Instantiate(tail, anchors);
      assert created == [InstanceOf(nodes[0])] + created';
      assert forall k :: 1 <= k < |nodes| ==> nodes[k] == tail[k - 1];
      if r.Fail? {
        var j' :| 0 <= j' < |tail| && tail[j'].anchor !in anchors && r'.error == UnknownAnchor(tail[j'].anchor)
                  && |created'| == j'
                  && forall k :: 0 <= k < j' ==> tail[k].anchor in anchors && created'[k] == InstanceOf(tail[k]);
        assert nodes[j' + 1] == tail[j'];
      }
    }
  }

  /** The first `n` step of the Init loop: the instances of the first `n` children. */
  function Created(nodes: seq<TagNode>): seq<Instance> {
    seq(|nodes|, k requires 0 <= k < |nodes| => InstanceOf(nodes[k]))
  }

  /** Past a prefix of children with known anchors, Init has created their instances in order. */
  lemma {:induction false} InstantiateSplit(nodes: seq<TagNode>, anchors: map<string, Anchor>, i: nat)
    requires i <= |nodes|
    requires forall k :: 0 <= k < i ==> nodes[k].anchor in anchors
    ensures Instantiate(nodes, anchors) == (Instantiate(nodes[i..], anchors).0, Created(nodes[..i]) + Instantiate(nodes[i..], anchors).1)
    decreases i
  {
    if i == 0 {
      assert nodes[0..] == nodes;
      assert Created(nodes[..0]) == [];
      assert [] + Instantiate(nodes, anchors).1 == Instantiate(nodes, anchors).1;
    } else {
      InstantiateSplit(nodes, anchors, i - 1);
      var here, rest := nodes[i - 1..], nodes[i..];
      assert here[0] == nodes[i - 1] && here[1..] == rest;
      var (r, created) := Instantiate(rest, anchors);
      assert Instantiate(here, anchors) == (r, [InstanceOf(nodes[i - 1])] + created);
      assert Created(nodes[..i]) == Created(nodes[..i - 1]) + [InstanceOf(nodes[i - 1])];
      assert Created(nodes[..i - 1]) + ([InstanceOf(nodes[i - 1])] + created) == Created(nodes[..i]) + created;
    }
  }

  function TagIds(insts: seq<Instance>): seq<EntityId> {
    seq(|insts|, k requires 0 <= k < |insts| => insts[k].tag.id)
  }

  /** The body component of the parent, holding the anchors by id. */
  class Body {
    var anchors: map<string, Anchor>

    constructor (anchors: map<string, Anchor>)
      ensures this.anchors == anchors
    {
      this.anchors := anchors;
    }
  }

  class TagEquippedEntity {
    const body: Body
    const id: string
    var enabled: bool
    var instances: seq<Instance>
    var components: seq<EntityId>

    ghost predicate Valid()
      reads this, body
    {
      AnchorsKnown(instances, body.anchors)
    }

    /** An entity without an id of its own; it starts disabled. */
    constructor (body: Body)
      ensures this.body == body && id == ""
      ensures !enabled && instances == [] && components == []
      ensures Valid()
    {
      this.body := body;
      id := "";
      enabled := false;
      instances := [];
      components := [];
    }

    /** An entity with the id `id`; it starts disabled. */
    constructor WithId(body: Body, id: string)
      ensures this.body == body && this.id == id
      ensures !enabled && instances == [] && components == []
      ensures Valid()
    {
      this.body := body;
      this.id := id;
      enabled := false;
      instances := [];
      components := [];
    }

    /**
     * Creates one instance per "tag" child, adds each tag as a component,
     * and, when every anchor was found, moves the enabled tags to their
     * anchors' frames.
     */
    method Init(nodes: seq<TagNode>, rotate: (Vec3, Quat) -> Vec3, compose: (Quat, Quat) -> Quat) returns (r: Outcome)
      requires Valid()
      modifies this
      ensures Valid()
      ensures r == Instantiate(nodes, body.anchors).0
      ensures var grown := old(instances) + Instantiate(nodes, body.anchors).1;
              && AnchorsKnown(grown, body.anchors)
              && instances == if r.Pass? then Updated(grown, body.anchors, rotate, compose) else grown
      ensures components == old(components) + TagIds(Instantiate(nodes, body.anchors).1)
      ensures enabled == old(enabled)
    {
      r := CreateInstances(nodes);
      if r.Pass? {
        UpdateComponents(rotate, compose);
      }
    }

    /** The loop of Init: instances and components for the children, in order, up to the first unknown anchor. */
    method CreateInstances(nodes: seq<TagNode>) returns (r: Outcome)
      requires Valid()
      modifies this
      ensures Valid()
      ensures (r, instances) == (Instantiate(nodes, body.anchors).0, old(instances) + Instantiate(nodes, body.anchors).1)
      ensures components == old(components) + TagIds(Instantiate(nodes, body.anchors).1)
      ensures enabled == old(enabled)
    {
      var i := 0;
      r := Pass;
      while i < |nodes|
        invariant 0 <= i <= |nodes|
        invariant forall k :: 0 <= k < i ==> nodes[k].anchor in body.anchors
        invariant instances == old(instances) + Created(nodes[..i])
        invariant components == old(components) + TagIds(Created(nodes[..i]))
        invariant AnchorsKnown(instances, body.anchors)
        invariant r == Pass && enabled == old(enabled)
      {
        var node := nodes[i];
        if node.anchor !in body.anchors {
          r := Fail(UnknownAnchor(node.anchor));
          InstantiateSplit(nodes, body.anchors, i);
          assert nodes[i..][0] == node;
          assert Instantiate(nodes[i..], body.anchors) == (r, []);
          assert Created(nodes[..i]) + [] == Created(nodes[..i]);
          return;
        }
        assert Created(nodes[..i + 1]) == Created(nodes[..i]) + [InstanceOf(node)];
        instances := instances + [InstanceOf(node)];
        components := components + [node.tag.id];
        i := i + 1;
      }
      InstantiateSplit(nodes, body.anchors, i);
      assert nodes[..i] == nodes && nodes[i..] == [];
      assert Created(nodes[..i]) + [] == Created(nodes[..i]);
    }

    /** Resets every tag. */
    method Reset()
      requires Valid()
      modifies this
      ensures Valid()
      ensures instances == ResetAll(old(instances))
      ensures enabled == old(enabled) && components == old(components)
    {
      var i := 0;
      while i < |instances|
        invariant 0 <= i <= |instances| == |old(instances)|
        invariant enabled == old(enabled) && components == old(components)
        invariant forall k :: 0 <= k < i ==> instances[k] == ResetAll(old(instances))[k]
        invariant forall k :: i <= k < |instances| ==> instances[k] == old(instances)[k]
      {
        var t := instances[i].tag;
        instances := instances[i := instances[i].(tag := t.(resets := t.resets + 1))];
        i := i + 1;
      }
    }

    /** Sets the entity's flag, and the flag of every instance's anchor, to `v`. */
    method SwitchAnchors(v: bool)
      requires Valid()
      modifies this, body
      ensures Valid()
      ensures enabled == v
      ensures instances == old(instances) && components == old(components)
      ensures body.anchors == Switched(old(body.anchors), instances, v)
    {
      enabled := v;
      var i := 0;
      while i < |instances|
        invariant 0 <= i <= |instances|
        invariant instances == old(instances) && components == old(components) && enabled == v
        invariant AnchorsKnown(instances[..i], old(body.anchors))
        invariant body.anchors == Switched(old(body.anchors), instances[..i], v)
      {
        var a := instances[i].anchor;
        assert instances[..i + 1][..i] == instances[..i];
        body.anchors := body.anchors[a := body.anchors[a].(enabled := v)];
        i := i + 1;
      }
      assert instances[..i] == instances;
    }

    method Enable()
      requires Valid()
      modifies this, body
      ensures Valid()
      ensures enabled
      ensures instances == old(instances) && components == old(components)
      ensures body.anchors == Switched(old(body.anchors), instances, true)
    {
      SwitchAnchors(true);
    }

    method Disable()
      requires Valid()
      modifies this, body
      ensures Valid()
      ensures !enabled
      ensures instances == old(instances) && components == old(components)
      ensures body.anchors == Switched(old(body.anchors), instances, false)
    {
      SwitchAnchors(false);
    }

    /** The tag of instance `i`; the index must be in range. */
    function GetTag(i: nat): Tag
      reads this
      requires i < |instances|
    {
      instances[i].tag
    }

    /** Replaces the payload of tag `i`; the index must be in range. */
    method SetTagPayload(i: nat, payload: string)
      requires Valid() && i < |instances|
      modifies this
      ensures Valid()
      ensures instances == WithPayload(old(instances), i, payload)
      ensures GetTag(i).payload == payload
      ensures forall j :: 0 <= j < |instances| && j != i ==> GetTag(j) == old(GetTag(j))
      ensures enabled == old(enabled) && components == old(components)
    {
      instances := WithPayload(instances, i, payload);
    }

    /** Gives every tag the payload `payload`. */
    method SetAllTagPayloads(payload: string)
      requires Valid()
      modifies this
      ensures Valid()
      ensures instances == PayloadAll(old(instances), payload)
      ensures enabled == old(enabled) && components == old(components)
    {
      var i := 0;
      while i < |instances|
        invariant 0 <= i <= |instances| == |old(instances)|
        invariant enabled == old(enabled) && components == old(components)
        invariant forall k :: 0 <= k < i ==> instances[k] == PayloadAll(old(instances), payload)[k]
        invariant forall k :: i <= k < |instances| ==> instances[k] == old(instances)[k]
      {
        instances := instances[i := instances[i].(tag := instances[i].tag.(payload := payload))];
        i := i + 1;
      }
    }

    /** Gives tag `k` the payload `payloads[k]`, after checking that the counts agree. */
    method SetTagPayloads(payloads: seq<string>) returns (r: Outcome)
      requires Valid()
      modifies this
      ensures Valid()
      ensures (r, instances) == PayloadsResult(old(instances), payloads)
      ensures enabled == old(enabled) && components == old(components)
    {
      if |payloads| != |instances| {
        return Fail(PayloadCountMismatch(|instances|, |payloads|));
      }
      var i := 0;
      while i < |payloads|
        invariant 0 <= i <= |instances| == |old(instances)| == |payloads|
        invariant enabled == old(enabled) && components == old(components)
        invariant forall k :: 0 <= k < i ==> instances[k] == Payloads(old(instances), payloads)[k]
        invariant forall k :: i <= k < |instances| ==> instances[k] == old(instances)[k]
      {
        instances := instances[i := instances[i].(tag := instances[i].tag.(payload := payloads[i]))];
        i := i + 1;
      }
      assert instances == Payloads(old(instances), payloads);
      r := Pass;
    }

    /** Moves every enabled tag to the pose its anchor and offsets give. */
    method UpdateComponents(rotate: (Vec3, Quat) -> Vec3, compose: (Quat, Quat) -> Quat)
      requires Valid()
      modifies this
      ensures Valid()
      ensures instances == Updated(old(instances), body.anchors, rotate, compose)
      ensures enabled == old(enabled) && components == old(components)
    {
      var i := 0;
      while i < |instances|
        invariant 0 <= i <= |instances| == |old(instances)|
        invariant enabled == old(enabled) && components == old(components)
        invariant Valid()
        invariant forall k :: 0 <= k < i ==> instances[k] == Updated(old(instances), body.anchors, rotate, compose)[k]
        invariant forall k :: i <= k < |instances| ==> instances[k] == old(instances)[k]
      {
        var inst := instances[i];
        if inst.tag.enabled {
          var anchor := body.anchors[inst.anchor];
          var position := Plus(rotate(inst.positionOffset, anchor.orientation), anchor.position);
          var orientation := compose(anchor.orientation, inst.orientationOffset);
          instances := instances[i := inst.(tag := inst.tag.(position := position, orientation := orientation))];
        }
        i := i + 1;
      }
    }

    /** Puts every tag in the medium, then enables the entity. */
    method AddToMedium(medium: string)
      requires Valid()
      modifies this, body
      ensures Valid()
      ensures instances == Joined(old(instances), Some(medium))
      ensures enabled
      ensures body.anchors == Switched(old(body.anchors), instances, true)
      ensures components == old(components)
    {
      Rejoin(Some(medium));
      Enable();
    }

    /** Takes every tag out of its medium, then disables the entity. */
    method RemoveFromMedium()
      requires Valid()
      modifies this, body
      ensures Valid()
      ensures instances == Joined(old(instances), None)
      ensures !enabled
      ensures body.anchors == Switched(old(body.anchors), instances, false)
      ensures components == old(components)
    {
      Rejoin(None);
      Disable();
    }

    /** Sets every tag's medium to `medium`. */
    method Rejoin(medium: Option<string>)
      requires Valid()
      modifies this
      ensures Valid()
      ensures instances == Joined(old(instances), medium)
      ensures enabled == old(enabled) && components == old(components)
    {
      var i := 0;
      while i < |instances|
        invariant 0 <= i <= |instances| == |old(instances)|
        invariant enabled == old(enabled) && components == old(components)
        invariant forall k :: 0 <= k < i ==> instances[k] == Joined(old(instances), medium)[k]
        invariant forall k :: i <= k < |instances| ==> instances[k] == old(instances)[k]
      {
        instances := instances[i := instances[i].(tag := instances[i].tag.(medium := medium))];
        i := i + 1;
      }
    }
  }
}
